=== FILE: README.md ===
# nginx log analyzer — a verified model of its decision logic

This project models the pure logic of `src/log_analyzer/log_analyzer.py`. That module finds
the newest nginx access log in a directory, parses the log's lines with the `ui_short`
pattern, refuses the file when too many lines fail to parse, aggregates the request times
per URL, and keeps the URLs with the largest total time for an HTML report. The model covers
each of those decisions and leaves the file, gzip, logging and template I/O around them out.

Modules, in dependency order:

- `Wrappers` (`wrappers.dfy`): the `Option` type, with `:-` propagation.
- `Text` (`text.dfy`): the Python string primitives the source relies on.
  - `str.isspace`, `strip` and `split()`.
  - ASCII digit runs and their values.
  - Zero-padded rendering.
- `LogFiles` (`log_files.dfy`): the log-name pattern `LOG_FILE_PATTERN`.
  - The `strptime("%Y%m%d")` date check.
  - `find_latest_log` as a fold over a directory listing given as a sequence.
  - The `report-YYYY.MM.DD.html` name and path built in `main`.
- `LineParser` (`line_parser.dfy`): `LOG_PATTERN`, written as a recogniser.
  - A renderer `Emit` that is its exact inverse.
  - URL extraction.
  - `request_time` as an exact decimal.
  - `parse_log_line`.
- `LogReader` (`log_reader.dfy`): the counting loop of `parse_log_file` and its error-rate verdict.
- `RealSeq` (`real_seq.dfy`): sum, maximum, minimum, mean and `statistics.median` over exact reals.
- `Statistics` (`statistics.dfy`): `calculate_statistics`.
  - Its first pass is a fold into a map.
  - Its second pass produces one row per URL, in dictionary (first-occurrence) order.
- `Report` (`report.dfy`): the stable descending sort by `time_sum` in `generate_report`.
  - Python's `[:report_size]` slice.
  - The table rows.

Modelling choices that follow the code rather than its documentation:

- **Whitespace.** `strip()`, `split()` and the `\S` class use the full set of characters for
  which Python's `str.isspace` holds. This includes `\x1c`–`\x1f`, `\x85` and the Unicode
  space separators, not only ASCII blanks.
- **`\d`.** The digit class is restricted to ASCII digits.
- **Final newline in a log name.** `LOG_FILE_PATTERN` ends in `$`. In Python `$` also matches
  just before a final `"\n"`, so a name such as `nginx-access-ui.log-20170630\n` is accepted.
- **The date check.** The 8-digit token passes `strptime` exactly when these hold:
  - its year is 1–9999;
  - its month is 01–12;
  - its day exists in that month of the proleptic Gregorian calendar.
- **`report_size`.** It is an `int` with Python slice semantics. A negative size keeps all
  rows but the last `-report_size`.
- **Exact arithmetic.** `request_time` and all statistics are exact reals, and nothing is
  rounded.
- **Stable sort ties.** Equal `time_sum` values stay in the order of the statistics
  dictionary, which is the order in which URLs first occur in the log.

## Model

Functions that carry no contract of their own are specified by the lemma rows that name
them. For example, `LogFiles.FindLatestLog` and `LogFiles.Latest` are specified by
`FindLatestLogSpec` and `LatestSpec`. `LineParser.MatchPrefix` is specified by
`MatchPrefixExact`, `RealSeq.Median` by the `Median…` rows, `Statistics.Finalize` by
`RowOf`, and `LogReader.Exceeds` by `ReadLines` and the `…Passes` rows.

| member | source | states |
|---|---|---|
| LogFiles.MatchLogName | src/log_analyzer/log_analyzer.py:49 | a recognised name yields an 8-digit token and an extension that is `""` or `".gz"` |
| LogFiles.MatchLogNameExact | src/log_analyzer/log_analyzer.py:112-119 | a name is recognised with token `t` and extension `e` iff it is exactly `nginx-access-ui.log-` + `t` (8 digits) + `e` (`""` or `.gz`), optionally followed by one final newline |
| LogFiles.ParseDate | src/log_analyzer/log_analyzer.py:114-116 | whatever `strptime` accepts is a valid calendar date |
| LogFiles.ParseDateExact | src/log_analyzer/log_analyzer.py:114-126 | the token parses to date `d` iff `d` is a valid date (years 1–9999, Gregorian leap years) and the token is `d` written `YYYYMMDD`; other tokens are skipped |
| LogFiles.DateToken | src/log_analyzer/log_analyzer.py:116 | the `%Y%m%d` rendering of a valid date is eight ASCII digits |
| LogFiles.JoinPath | src/log_analyzer/log_analyzer.py:121 | `os.path.join(dir, name)` ends with `name` |
| LogFiles.Candidate | src/log_analyzer/log_analyzer.py:112-124 | a directory entry contributes a candidate only when its name is of the `LOG_FILE_PATTERN` shape with the token of a valid date; the candidate carries that date, the extension of the name and the joined path |
| LogFiles.CandidateNone | src/log_analyzer/log_analyzer.py:112-124 | an entry is skipped exactly when no valid date and extension make its name a recognised log name |
| LogFiles.CandidateOf | src/log_analyzer/log_analyzer.py:112-124 | every recognised name whose token is a valid date contributes that date, its extension and the joined path |
| LogFiles.LatestSpec | src/log_analyzer/log_analyzer.py:108-128 | the fold finds nothing iff no entry contributes; otherwise it returns the first contribution whose date no other one exceeds (ties keep the earliest, because the comparison is strict) |
| LogFiles.FindLatestLogSpec | src/log_analyzer/log_analyzer.py:103-128 | `find_latest_log` returns None iff the directory is missing or no name is a recognised log with a valid date; otherwise it returns the first entry with the latest date |
| LogFiles.FindLatestLogExample | tests/test_log_analyzer.py:77-95 | in the test directory the `.gz` log of 2017-07-01 is chosen with a path ending in its name, and an empty directory gives None |
| LogFiles.ReportName | src/log_analyzer/log_analyzer.py:323 | the report name has the fixed length of `report-YYYY.MM.DD.html` |
| LogFiles.ReportNameOfToken | src/log_analyzer/log_analyzer.py:323 | the report name is the log's own date token regrouped as `YYYY.MM.DD` |
| LogFiles.ReportNameInjective | src/log_analyzer/log_analyzer.py:323-327 | distinct log dates give distinct report names |
| LogFiles.ReportPath | src/log_analyzer/log_analyzer.py:324 | the report path ends with the report name |
| Text.Run | src/log_analyzer/log_analyzer.py:34-45 | a maximal run of a character class: the input is the run followed by a rest that does not start with the class |
| Text.RunExact | src/log_analyzer/log_analyzer.py:34-45 | the run is `w` with rest `r` iff the input is `w + r`, `w` is in the class and `r` does not start with it (greedy matching without backtracking) |
| Text.Strip | src/log_analyzer/log_analyzer.py:133 | `strip()` removes only whitespace around the text and leaves none at either end |
| Text.StripOf | src/log_analyzer/log_analyzer.py:133 | stripping whitespace-padded trimmed text gives back that text |
| Text.RStripOf | src/log_analyzer/log_analyzer.py:133 | removing trailing whitespace from text that does not end in whitespace gives back that text |
| Text.SplitExact | src/log_analyzer/log_analyzer.py:139 | `split()` gives a list of words exactly when the string is those words with whitespace before, between and after them, at least one character of it between neighbours |
| Text.SplitLayout | src/log_analyzer/log_analyzer.py:139 | words laid out with any whitespace gaps, leading and trailing whitespace included, split back into those words |
| Text.Gaps | src/log_analyzer/log_analyzer.py:139 | every string is the layout of its own split with the whitespace it contains, so `split()` drops only whitespace |
| Text.SplitJoin | src/log_analyzer/log_analyzer.py:139 | splitting words joined by single spaces gives back the words |
| Text.PadValue | src/log_analyzer/log_analyzer.py:323 | a zero-padded rendering of a number denotes that number |
| Text.DigitsValueAppend | src/log_analyzer/log_analyzer.py:45 | the value of concatenated digit strings is the first scaled by ten to the length of the second plus the second |
| LineParser.EmitMatches | src/log_analyzer/log_analyzer.py:34-46 | the pattern matches every well-formed rendered record, followed by admissible text, with exactly that record's fields |
| LineParser.MatchedPrefix | src/log_analyzer/log_analyzer.py:34-46 | whatever the pattern matches is a well-formed record rendered in the log format, followed by text that cannot extend the time |
| LineParser.MatchPrefixExact | src/log_analyzer/log_analyzer.py:34-46 | `LOG_PATTERN.match` succeeds with fields `f` and trailing text `rest` iff the text is `f` rendered in the log format followed by `rest`, `f` is well formed (dotted quad of 1–3 digits, non-blank users, 3-digit status, digit byte count, quote-free quoted fields, `\d+\.\d+` time) and `rest` cannot extend the time's last digit run |
| LineParser.UrlOf | src/log_analyzer/log_analyzer.py:139-143 | the URL is either the whole request field or one whitespace-free word |
| LineParser.UrlOfWords | src/log_analyzer/log_analyzer.py:139-141 | with at least two words the URL is the second word, whatever whitespace comes before, between and after them |
| LineParser.UrlOfFewWords | src/log_analyzer/log_analyzer.py:139-143 | with at most one word the URL is the whole request field, its whitespace included |
| LineParser.UrlOfSingleWord | src/log_analyzer/log_analyzer.py:142-143 | a request field without whitespace is its own URL |
| LineParser.RequestTime | src/log_analyzer/log_analyzer.py:146 | the value of `whole.frac` lies in `[whole, whole + 1)` |
| LineParser.RequestTimeScaled | src/log_analyzer/log_analyzer.py:45 | `whole.frac` is exactly the integer with digits `whole`+`frac` divided by ten to the number of fraction digits |
| LineParser.ParseLine | src/log_analyzer/log_analyzer.py:131-146 | a parsed request time is never negative |
| LineParser.ParseLineOf | src/log_analyzer/log_analyzer.py:131-146 | every well-formed line, with any whitespace around it and any admissible trailing text, parses to its URL and exact request time |
| LineParser.ParseLineNone | src/log_analyzer/log_analyzer.py:133-135 | a line is rejected iff its stripped text is no well-formed record line followed by admissible text |
| LineParser.NoMatchNoFields | src/log_analyzer/log_analyzer.py:133-135 | text the pattern rejects is no well-formed record line followed by admissible text |
| LineParser.ParseRendered | src/log_analyzer/log_analyzer.py:131-146 | a rendered well-formed line parses to its record |
| LineParser.ParseLineSample | tests/test_log_analyzer.py:55-67 | the test's record line parses to `/api/v2/banner/25019354` and exactly 0.39 |
| LineParser.ParseLineRejectsSample | tests/test_log_analyzer.py:69-73 | the test's malformed line is rejected |
| LogReader.ReadLines | src/log_analyzer/log_analyzer.py:161-200 | the loop counts every line and every line that fails to parse; it refuses the file iff there was a line and the error rate is above the threshold; otherwise it yields the parsed records in order |
| LogReader.ParseLogFile | src/log_analyzer/log_analyzer.py:149-200 | the same verdict with `parse_log_line` as the parser |
| LogReader.Emitted | src/log_analyzer/log_analyzer.py:166-171 | no more records than lines |
| LogReader.ErrorCount | src/log_analyzer/log_analyzer.py:170-173 | no more errors than lines |
| LogReader.EmittedTimesNonNegative | src/log_analyzer/log_analyzer.py:166-171 | no record read from a file has a negative request time, since `LOG_PATTERN` writes the time with digits only (line 45) |
| LogReader.EmittedTimesFrom | src/log_analyzer/log_analyzer.py:166-171 | a line parser that never yields a negative time makes the reader emit none |
| LogReader.EmittedPlusErrors | src/log_analyzer/log_analyzer.py:166-173 | records emitted plus errors counted equals the number of lines |
| LogReader.EmittedAppend | src/log_analyzer/log_analyzer.py:166-173 | reading two pieces in turn emits and counts what reading each does |
| LogReader.EmittedOne | src/log_analyzer/log_analyzer.py:168-173 | one line either emits its parse or counts one error |
| LogReader.EmittedAllParsed | src/log_analyzer/log_analyzer.py:166-173 | when every line parses, the records are the lines' parses one for one and there is no error |
| LogReader.EmittedNoneParsed | src/log_analyzer/log_analyzer.py:166-173 | when no line parses, nothing is emitted and every line is an error |
| LogReader.RateAtThresholdPasses | src/log_analyzer/log_analyzer.py:188-190 | an error rate equal to the threshold does not refuse the file |
| LogReader.EmptyFilePasses | src/log_analyzer/log_analyzer.py:188 | an empty file is never refused |
| LogReader.FullThresholdPasses | src/log_analyzer/log_analyzer.py:188-190 | with a threshold of at least one no file is refused |
| LogReader.CleanFilePasses | src/log_analyzer/log_analyzer.py:188-190 | a file whose every line parses passes any threshold that is not negative |
| RealSeq.Max | src/log_analyzer/log_analyzer.py:246 | `max` is one of the samples and at least every sample |
| RealSeq.SumAppend | src/log_analyzer/log_analyzer.py:222 | the running sum over two pieces is the sum of their sums |
| RealSeq.MeanBounds | src/log_analyzer/log_analyzer.py:241-245 | `time_sum / count` lies between the smallest and the largest sample |
| RealSeq.MeanAtMostMax | src/log_analyzer/log_analyzer.py:241-246 | the mean is at most `time_max` |
| RealSeq.MeanAtLeastMin | src/log_analyzer/log_analyzer.py:241-245 | the mean is at least the smallest sample |
| RealSeq.SortAsc | src/log_analyzer/log_analyzer.py:247 | the sort inside `statistics.median` is ordered and a permutation of the samples |
| RealSeq.SortedUnique | src/log_analyzer/log_analyzer.py:247 | two ordered permutations of the same samples are equal |
| RealSeq.MedianOfPermutation | src/log_analyzer/log_analyzer.py:247 | the median does not depend on the order in which the samples arrived |
| RealSeq.MedianBounds | src/log_analyzer/log_analyzer.py:247 | the median lies between the smallest and the largest sample |
| RealSeq.MedianSmall | src/log_analyzer/log_analyzer.py:247 | the median of one sample is that sample, and of two it is their mean |
| Statistics.Samples | src/log_analyzer/log_analyzer.py:217-223 | a URL's time list has one entry per occurrence of the URL |
| Statistics.RecordStep | src/log_analyzer/log_analyzer.py:217-223 | one more entry keeps the per-URL map a summary of the entries seen |
| Statistics.Accumulate | src/log_analyzer/log_analyzer.py:212-226 | after the first pass the map has exactly the URLs that occur, each with its count, time sum and time list |
| Statistics.FirstSeen | src/log_analyzer/log_analyzer.py:230 | the dictionary's URLs are distinct and are exactly the URLs that occur |
| Statistics.FirstSeenOrder | src/log_analyzer/log_analyzer.py:217-230 | the dictionary lists a URL before another exactly when the URL first occurs earlier in the entries |
| Statistics.CalculateStatistics | src/log_analyzer/log_analyzer.py:229-250 | one row per URL that occurs, and each row comes before every row whose URL first occurs later in the entries |
| Statistics.RowOf | src/log_analyzer/log_analyzer.py:229-248 | each row's count is the URL's number of occurrences; its time sum, mean, maximum and median are those of its request times; `count_perc` is its count over the number of entries times 100, and `time_perc` its time sum over the total time times 100, or 0 when the total time is 0 |
| Statistics.RowBounds | src/log_analyzer/log_analyzer.py:241-247 | each row's median and mean lie between the smallest sample and `time_max` |
| Statistics.RowTimeShare | src/log_analyzer/log_analyzer.py:237-240 | with no negative request time, each row's `time_perc` is between 0 and 100 and is 0 exactly when the URL's `time_sum` is 0, which covers a log whose every time is 0 |
| Statistics.SamplesWithinTotal | src/log_analyzer/log_analyzer.py:217-226 | with no negative request time, a URL's time sum is between 0 and the total time |
| Statistics.RowCountShare | src/log_analyzer/log_analyzer.py:234-236 | each row's `count_perc` is above 0 and at most 100 |
| Statistics.StatisticsTotals | src/log_analyzer/log_analyzer.py:214-237 | the rows' counts add up to the number of entries, and their time sums add up to the total time |
| Statistics.StatisticsKeys | src/log_analyzer/log_analyzer.py:229-232 | the rows are keyed by exactly the URLs that occur, each once |
| Statistics.StatisticsSample | tests/test_log_analyzer.py:99-114 | on the test's entries there are two rows; the first URL has count 2, time sum 0.3, mean 0.15, maximum 0.2 and median 0.15 |
| Report.Insert | src/log_analyzer/log_analyzer.py:260 | one insertion step keeps the order non-increasing and adds exactly the new row |
| Report.InsertStable | src/log_analyzer/log_analyzer.py:260 | an inserted row goes after every row with the same time sum |
| Report.SortDesc | src/log_analyzer/log_analyzer.py:260 | `sorted(..., reverse=True)` is non-increasing in `time_sum` and a permutation of the rows |
| Report.SortStable | src/log_analyzer/log_analyzer.py:260 | for every time sum the sort keeps the input order of the rows with that sum |
| Report.SliceEnd | src/log_analyzer/log_analyzer.py:260-262 | `[:n]` keeps at most all the rows |
| Report.TopRows | src/log_analyzer/log_analyzer.py:260-262 | the number of rows kept is what Python's slice keeps |
| Report.ReportLength | src/log_analyzer/log_analyzer.py:260-262 | a size `N` that is not negative keeps `min(N, number of rows)` rows |
| Report.TopRowsSorted | src/log_analyzer/log_analyzer.py:260-262 | the kept rows are non-increasing in `time_sum` |
| Report.TopRowsDominate | src/log_analyzer/log_analyzer.py:260-262 | the kept rows are drawn from the input, and no row left out has a larger time sum than a kept one |
| Report.TopRowsStable | src/log_analyzer/log_analyzer.py:260-262 | the kept rows with a given time sum are the first input rows with that sum, in input order |
| Report.TopRowsSample | src/log_analyzer/log_analyzer.py:260-262 | of rows with sums 1, 2, 1 the top two are the 2 and then the first 1 |
| Report.ReportTable | src/log_analyzer/log_analyzer.py:265-267 | each table row carries its own URL and unchanged values, in the kept order |

## Left out

- Directory listing, `os.path.exists`, `open` and `gzip.open`: I/O. The listing is given as
  an optional sequence of names (None for a missing directory) and a log file as its
  sequence of lines. The choice between `open` and `gzip.open` by extension is not modelled.
- A failure while reading is not modelled: the `except Exception` at
  src/log_analyzer/log_analyzer.py:183-185 only logs and re-raises it.
- `parse_log_file` is a generator that yields records before it checks the threshold.
  - The model collects the records and returns one verdict after the last line.
  - A consumer that stops early, or that acts on records yielded before the `ValueError`,
    is not modelled.
- LogReader.ReadLines: the counting is stated for any line parser given as a parameter.
  LogReader.ParseLogFile applies it to `parse_log_line`.
- structlog and logging setup (`setup_logging`), the `parse_progress` event every 100,000
  lines, and all other log events: they are observability only.
- `load_config`, including `json.load` and the merge with `default_config`: library I/O.
  The test file calls it with two arguments although the source declares one.
- `generate_report` after the table:
  - reading the template;
  - `json.dumps` and `Template.safe_substitute`;
  - `os.makedirs`;
  - writing the file.
- `check_report_exists`, `main`'s argparse handling, its exit codes and its sequencing of the steps above: orchestration over filesystem state.
- Floating point: `float(request_time)` and all sums, means and percentages are exact reals.
  - None of the `round(..., 2)` or `round(..., 3)` calls are modelled.
  - The error rate `error_lines / total_lines` in `parse_log_file` is compared with the
    threshold exactly. At the boundary the two agree. Python's integer true division and
    the literal `0.1` (or `float("0.1")` from JSON) are both correctly rounded, so a rate
    such as 1/10 or 3/30 is the very float of the threshold, and `>` is false. The exact
    and float comparisons can differ only for a rate within half a unit in the last place
    of the float threshold without being equal to it. For a short decimal threshold such
    as 0.1 that needs on the order of 10^16 lines.
  - `generate_report` sorts on the `time_sum` that was already rounded to three decimals.
    Rounding can make different sums equal, and the source then keeps such rows in
    dictionary order. The model sorts on the exact sum and orders them by that sum.
- Statistics.Finalize: its guards are written out as in the source, and only one of them
  can be taken.
  - `total_time > 0` (line 239) fails when every request time is zero. Every `time_perc` is
    then 0, as Statistics.RowTimeShare states.
  - `total_count > 0`, `stats["count"] > 0` and the `time_list` checks always hold for a
    row: every URL in the dictionary has at least one entry, so the zero branches are
    never taken.
- The Unicode digits that Python's `\d` also accepts: only ASCII digits are modelled.
- LogFiles.ReportName: `strftime('%Y')` for years below 1000 differs between platforms. The
  model always pads the year to four digits.
- LineParser.ParseLineSample: the test line is stated as its fields rendered by `Emit`
  rather than as one string literal. That rendering produces exactly the test's text: two
  spaces after `remote_user`, one after `http_x_real_ip`, and `0.390`. The request and the
  user agent are written as their words joined by single spaces, which is the same text.

=== FILE: line_parser.dfy ===
/** One access-log line (`LOG_PATTERN` and `parse_log_line` in
    src/log_analyzer/log_analyzer.py). The regular expression is written out as a
    recogniser over the stripped line; every repetition in it is followed by a
    character the repetition cannot consume, so the greedy runs below are the only
    way the expression can match and no backtracking has to be modelled. */
module LineParser {
  import opened Wrappers
  import opened Text

  /** How many characters a repetition may take: `{lo,hi}` or `{lo,}`. */
  datatype Width = Between(lo: nat, hi: nat) | AtLeast(lo: nat) {
    predicate Admits(n: nat) {
      match this
      case Between(lo, hi) => lo <= n <= hi
      case AtLeast(lo) => lo <= n
    }
  }

  /** A greedy repetition of `p`, of the given width. */
  function Span(s: string, p: char -> bool, width: Width): Option<Lexed> {
    var x := Run(s, p);
    if width.Admits(|x.text|) then Some(x) else None
  }

  /** One literal character. */
  function Expect(s: string, c: char): Option<string> {
    if s != [] && s[0] == c then Some(s[1..]) else None
  }

  /** A greedy repetition followed by a separator it cannot contain. */
  function Field(s: string, p: char -> bool, width: Width, sep: char): Option<Lexed> {
    var x :- Span(s, p, width);
    var rest :- Expect(x.rest, sep);
    Some(Lexed(x.text, rest))
  }

  predicate IsBlank(c: char) {
    c == ' '
  }

  predicate IsNotQuote(c: char) {
    c != '"'
  }

  predicate IsNotBracket(c: char) {
    c != ']'
  }

  /** `"[^"]*" `: a double-quoted field and the space after it. */
  function Quoted(s: string): Option<Lexed> {
    var body :- Expect(s, '"');
    var q :- Field(body, IsNotQuote, AtLeast(0), '"');
    var rest :- Expect(q.rest, ' ');
    Some(Lexed(q.text, rest))
  }

  /** The text `w`, then the character `sep`, then `rest`. */
  function FieldThen(w: string, sep: char, rest: string): string {
    w + ([sep] + rest)
  }

  /** The text of a quoted field `q` followed by a space, then `rest`. */
  function QuoteThen(q: string, rest: string): string {
    ['"'] + FieldThen(q, '"', [' '] + rest)
  }

  lemma SpanExact(s: string, p: char -> bool, width: Width, w: string, r: string)
    ensures Span(s, p, width) == Some(Lexed(w, r)) <==>
      s == w + r && All(w, p) && width.Admits(|w|) && (r == [] || !p(r[0]))
  {
    RunExact(s, p, w, r);
  }

  lemma ExpectExact(s: string, c: char, r: string)
    ensures Expect(s, c) == Some(r) <==> s == [c] + r
  {
    if s == [c] + r {
      assert s[1..] == r;
    }
    if Expect(s, c) == Some(r) {
      assert s == [s[0]] + s[1..];
    }
  }

  lemma FieldExact(s: string, p: char -> bool, width: Width, sep: char, w: string, r: string)
    requires !p(sep)
    ensures Field(s, p, width, sep) == Some(Lexed(w, r)) <==>
      s == FieldThen(w, sep, r) && All(w, p) && width.Admits(|w|)
  {
    if s == FieldThen(w, sep, r) && All(w, p) && width.Admits(|w|) {
      SpanExact(s, p, width, w, [sep] + r);
      ExpectExact([sep] + r, sep, r);
    }
    if Field(s, p, width, sep) == Some(Lexed(w, r)) {
      var x := Span(s, p, width).value;
      SpanExact(s, p, width, x.text, x.rest);
      ExpectExact(x.rest, sep, r);
    }
  }

  lemma QuotedExact(s: string, q: string, r: string)
    ensures Quoted(s) == Some(Lexed(q, r)) <==> s == QuoteThen(q, r) && All(q, IsNotQuote)
  {
    if s == QuoteThen(q, r) && All(q, IsNotQuote) {
      ExpectExact(s, '"', FieldThen(q, '"', [' '] + r));
      FieldExact(FieldThen(q, '"', [' '] + r), IsNotQuote, AtLeast(0), '"', q, [' '] + r);
      ExpectExact([' '] + r, ' ', r);
    }
    if Quoted(s) == Some(Lexed(q, r)) {
      var body := Expect(s, '"').value;
      ExpectExact(s, '"', body);
      var x := Field(body, IsNotQuote, AtLeast(0), '"').value;
      FieldExact(body, IsNotQuote, AtLeast(0), '"', x.text, x.rest);
      ExpectExact(x.rest, ' ', r);
    }
  }

  /** The dotted quad of `remote_addr`, as four digit strings. */
  datatype Address = Address(a: string, b: string, c: string, d: string)

  /** `remote_addr`, `remote_user` and `http_x_real_ip`, with the number of spaces
      in each of the two `" +"` gaps. */
  datatype ClientPart = ClientPart(remoteAddr: Address, remoteUser: string, userGap: nat,
                                   realIp: string, ipGap: nat)

  /** `time_local`, `request`, `status` and `body_bytes_sent`. */
  datatype RequestPart = RequestPart(timeLocal: string, request: string, status: string,
                                     bodyBytesSent: string)

  /** The five remaining quoted fields and `request_time`, split at its point. */
  datatype TrailerPart = TrailerPart(referer: string, userAgent: string, forwardedFor: string,
                                     requestId: string, rbUser: string,
                                     timeWhole: string, timeFrac: string)

  /** Everything `LOG_PATTERN` captures. */
  datatype LineFields = LineFields(client: ClientPart, req: RequestPart, trailer: TrailerPart)

  predicate IsOctet(w: string) {
    1 <= |w| <= 3 && All(w, IsDigit)
  }

  predicate IsDigits(w: string) {
    w != [] && All(w, IsDigit)
  }

  predicate AddressWellFormed(a: Address) {
    IsOctet(a.a) && IsOctet(a.b) && IsOctet(a.c) && IsOctet(a.d)
  }

  predicate ClientWellFormed(c: ClientPart) {
    && AddressWellFormed(c.remoteAddr)
    && IsWord(c.remoteUser) && c.userGap >= 1
    && IsWord(c.realIp) && c.ipGap >= 1
  }

  predicate RequestWellFormed(r: RequestPart) {
    && r.timeLocal != [] && All(r.timeLocal, IsNotBracket)
    && All(r.request, IsNotQuote)
    && |r.status| == 3 && All(r.status, IsDigit)
    && IsDigits(r.bodyBytesSent)
  }

  predicate TrailerWellFormed(t: TrailerPart) {
    && All(t.referer, IsNotQuote) && All(t.userAgent, IsNotQuote)
    && All(t.forwardedFor, IsNotQuote) && All(t.requestId, IsNotQuote)
    && All(t.rbUser, IsNotQuote)
    && IsDigits(t.timeWhole) && IsDigits(t.timeFrac)
  }

  /** The constraints the pattern puts on each captured field. */
  predicate WellFormed(f: LineFields) {
    ClientWellFormed(f.client) && RequestWellFormed(f.req) && TrailerWellFormed(f.trailer)
  }

  /** What may follow the match: the pattern has no `$`, but its last `\d+` is
      greedy, so the text after it cannot start with a digit. */
  predicate FollowsMatch(rest: string) {
    rest == [] || !IsDigit(rest[0])
  }

  function EmitAddress(a: Address, rest: string): string {
    FieldThen(a.a, '.', FieldThen(a.b, '.', FieldThen(a.c, '.', FieldThen(a.d, ' ', rest))))
  }

  function EmitIdents(c: ClientPart, rest: string): string {
    c.remoteUser + (Spaces(c.userGap) + (c.realIp + (Spaces(c.ipGap) + rest)))
  }

  function EmitClient(c: ClientPart, rest: string): string {
    EmitAddress(c.remoteAddr, EmitIdents(c, rest))
  }

  function EmitRequest(r: RequestPart, rest: string): string {
    ['['] + FieldThen(r.timeLocal, ']', [' '] + QuoteThen(r.request,
      FieldThen(r.status, ' ', FieldThen(r.bodyBytesSent, ' ', rest))))
  }

  function EmitTrailer(t: TrailerPart, rest: string): string {
    QuoteThen(t.referer, QuoteThen(t.userAgent, QuoteThen(t.forwardedFor,
      QuoteThen(t.requestId, QuoteThen(t.rbUser, FieldThen(t.timeWhole, '.', t.timeFrac + rest))))))
  }

  /** The line a record with these fields renders to, followed by `rest`. */
  function Emit(f: LineFields, rest: string): string {
    EmitClient(f.client, EmitRequest(f.req, EmitTrailer(f.trailer, rest)))
  }

  /** `\d{1,3}\.\d{1,3}\.\d{1,3}\.\d{1,3} ` */
  function MatchAddress(s: string): Option<(Address, string)> {
    var a :- Field(s, IsDigit, Between(1, 3), '.');
    var b :- Field(a.rest, IsDigit, Between(1, 3), '.');
    var c :- Field(b.rest, IsDigit, Between(1, 3), '.');
    var d :- Field(c.rest, IsDigit, Between(1, 3), ' ');
    Some((Address(a.text, b.text, c.text, d.text), d.rest))
  }

  /** `(\S+) +(\S+) +`, after the address `addr`. */
  function MatchIdents(addr: Address, s: string): Option<(ClientPart, string)> {
    var user :- Span(s, IsNonSpace, AtLeast(1));
    var gap1 :- Span(user.rest, IsBlank, AtLeast(1));
    var ip :- Span(gap1.rest, IsNonSpace, AtLeast(1));
    var gap2 :- Span(ip.rest, IsBlank, AtLeast(1));
    Some((ClientPart(addr, user.text, |gap1.text|, ip.text, |gap2.text|), gap2.rest))
  }

  /** `\d{1,3}\.\d{1,3}\.\d{1,3}\.\d{1,3} (\S+) +(\S+) +` */
  function MatchClient(s: string): Option<(ClientPart, string)> {
    var addr :- MatchAddress(s);
    MatchIdents(addr.0, addr.1)
  }

  /** `\[([^\]]+)\] "([^"]*)" (\d{3}) (\d+) ` */
  function MatchRequest(s: string): Option<(RequestPart, string)> {
    var open :- Expect(s, '[');
    var time :- Field(open, IsNotBracket, AtLeast(1), ']');
    var afterTime :- Expect(time.rest, ' ');
    var request :- Quoted(afterTime);
    var status :- Field(request.rest, IsDigit, Between(3, 3), ' ');
    var bytes :- Field(status.rest, IsDigit, AtLeast(1), ' ');
    Some((RequestPart(time.text, request.text, status.text, bytes.text), bytes.rest))
  }

  /** Five `"([^"]*)" ` fields, then `(\d+\.\d+)`. */
  function MatchTrailer(s: string): Option<(TrailerPart, string)> {
    var referer :- Quoted(s);
    var agent :- Quoted(referer.rest);
    var forwarded :- Quoted(agent.rest);
    var requestId :- Quoted(forwarded.rest);
    var rbUser :- Quoted(requestId.rest);
    var whole :- Field(rbUser.rest, IsDigit, AtLeast(1), '.');
    var frac :- Span(whole.rest, IsDigit, AtLeast(1));
    Some((TrailerPart(referer.text, agent.text, forwarded.text, requestId.text, rbUser.text,
                      whole.text, frac.text),
          frac.rest))
  }

  /** `LOG_PATTERN.match(s)`: the captured fields and the unmatched rest of `s`. */
  function MatchPrefix(s: string): Option<(LineFields, string)> {
    var client :- MatchClient(s);
    var req :- MatchRequest(client.1);
    var trailer :- MatchTrailer(req.1);
    Some((LineFields(client.0, req.0, trailer.0), trailer.1))
  }

  lemma BlankRun(w: string)
    requires All(w, IsBlank)
    ensures w == Spaces(|w|)
  {
  }

  lemma SpacesThen(n: nat, rest: string)
    requires n >= 1
    ensures (Spaces(n) + rest)[0] == ' '
  {
  }

  lemma EmitAddressMatches(a: Address, rest: string)
    requires AddressWellFormed(a)
    ensures MatchAddress(EmitAddress(a, rest)) == Some((a, rest))
  {
    var d := FieldThen(a.d, ' ', rest);
    var c := FieldThen(a.c, '.', d);
    var b := FieldThen(a.b, '.', c);
    var s := FieldThen(a.a, '.', b);
    FieldExact(s, IsDigit, Between(1, 3), '.', a.a, b);
    FieldExact(b, IsDigit, Between(1, 3), '.', a.b, c);
    FieldExact(c, IsDigit, Between(1, 3), '.', a.c, d);
    FieldExact(d, IsDigit, Between(1, 3), ' ', a.d, rest);
  }

  lemma EmitIdentsMatches(c: ClientPart, rest: string)
    requires IsWord(c.remoteUser) && c.userGap >= 1 && IsWord(c.realIp) && c.ipGap >= 1
    requires rest != [] && rest[0] == '['
    ensures MatchIdents(c.remoteAddr, EmitIdents(c, rest)) == Some((c, rest))
  {
    var gap2 := Spaces(c.ipGap) + rest;
    var ip := c.realIp + gap2;
    var gap1 := Spaces(c.userGap) + ip;
    var user := c.remoteUser + gap1;
    SpacesThen(c.userGap, ip);
    SpanExact(user, IsNonSpace, AtLeast(1), c.remoteUser, gap1);
    SpanExact(gap1, IsBlank, AtLeast(1), Spaces(c.userGap), ip);
    SpacesThen(c.ipGap, rest);
    SpanExact(ip, IsNonSpace, AtLeast(1), c.realIp, gap2);
    SpanExact(gap2, IsBlank, AtLeast(1), Spaces(c.ipGap), rest);
  }

  lemma EmitClientMatches(c: ClientPart, rest: string)
    requires ClientWellFormed(c) && rest != [] && rest[0] == '['
    ensures MatchClient(EmitClient(c, rest)) == Some((c, rest))
  {
    EmitAddressMatches(c.remoteAddr, EmitIdents(c, rest));
    EmitIdentsMatches(c, rest);
  }

  lemma MatchedAddress(s: string)
    requires MatchAddress(s).Some?
    ensures AddressWellFormed(MatchAddress(s).value.0)
    ensures s == EmitAddress(MatchAddress(s).value.0, MatchAddress(s).value.1)
  {
    var a := Field(s, IsDigit, Between(1, 3), '.').value;
    FieldExact(s, IsDigit, Between(1, 3), '.', a.text, a.rest);
    var b := Field(a.rest, IsDigit, Between(1, 3), '.').value;
    FieldExact(a.rest, IsDigit, Between(1, 3), '.', b.text, b.rest);
    var c := Field(b.rest, IsDigit, Between(1, 3), '.').value;
    FieldExact(b.rest, IsDigit, Between(1, 3), '.', c.text, c.rest);
    var d := Field(c.rest, IsDigit, Between(1, 3), ' ').value;
    FieldExact(c.rest, IsDigit, Between(1, 3), ' ', d.text, d.rest);
  }

  lemma MatchedIdents(addr: Address, s: string)
    requires MatchIdents(addr, s).Some?
    ensures var (c, rest) := MatchIdents(addr, s).value;
      && c.remoteAddr == addr
      && IsWord(c.remoteUser) && c.userGap >= 1 && IsWord(c.realIp) && c.ipGap >= 1
      && s == EmitIdents(c, rest)
  {
    var user := Span(s, IsNonSpace, AtLeast(1)).value;
    SpanExact(s, IsNonSpace, AtLeast(1), user.text, user.rest);
    var gap1 := Span(user.rest, IsBlank, AtLeast(1)).value;
    SpanExact(user.rest, IsBlank, AtLeast(1), gap1.text, gap1.rest);
    BlankRun(gap1.text);
    var ip := Span(gap1.rest, IsNonSpace, AtLeast(1)).value;
    SpanExact(gap1.rest, IsNonSpace, AtLeast(1), ip.text, ip.rest);
    var gap2 := Span(ip.rest, IsBlank, AtLeast(1)).value;
    SpanExact(ip.rest, IsBlank, AtLeast(1), gap2.text, gap2.rest);
    BlankRun(gap2.text);
  }

  lemma MatchedClient(s: string)
    requires MatchClient(s).Some?
    ensures ClientWellFormed(MatchClient(s).value.0)
    ensures s == EmitClient(MatchClient(s).value.0, MatchClient(s).value.1)
  {
    MatchedAddress(s);
    var addr := MatchAddress(s).value;
    MatchedIdents(addr.0, addr.1);
  }

  lemma EmitRequestMatches(r: RequestPart, rest: string)
    requires RequestWellFormed(r)
    ensures MatchRequest(EmitRequest(r, rest)) == Some((r, rest))
  {
    var bytes := FieldThen(r.bodyBytesSent, ' ', rest);
    var status := FieldThen(r.status, ' ', bytes);
    var req := QuoteThen(r.request, status);
    var afterTime := [' '] + req;
    var time := FieldThen(r.timeLocal, ']', afterTime);
    var s := ['['] + time;
    assert s == EmitRequest(r, rest);
    ExpectExact(s, '[', time);
    FieldExact(time, IsNotBracket, AtLeast(1), ']', r.timeLocal, afterTime);
    ExpectExact(afterTime, ' ', req);
    QuotedExact(req, r.request, status);
    FieldExact(status, IsDigit, Between(3, 3), ' ', r.status, bytes);
    FieldExact(bytes, IsDigit, AtLeast(1), ' ', r.bodyBytesSent, rest);
  }

  lemma MatchedRequest(s: string)
    requires MatchRequest(s).Some?
    ensures RequestWellFormed(MatchRequest(s).value.0)
    ensures s == EmitRequest(MatchRequest(s).value.0, MatchRequest(s).value.1)
  {
    var open := Expect(s, '[').value;
    ExpectExact(s, '[', open);
    var time := Field(open, IsNotBracket, AtLeast(1), ']').value;
    FieldExact(open, IsNotBracket, AtLeast(1), ']', time.text, time.rest);
    var afterTime := Expect(time.rest, ' ').value;
    ExpectExact(time.rest, ' ', afterTime);
    var request := Quoted(afterTime).value;
    QuotedExact(afterTime, request.text, request.rest);
    var status := Field(request.rest, IsDigit, Between(3, 3), ' ').value;
    FieldExact(request.rest, IsDigit, Between(3, 3), ' ', status.text, status.rest);
    var bytes := Field(status.rest, IsDigit, AtLeast(1), ' ').value;
    FieldExact(status.rest, IsDigit, AtLeast(1), ' ', bytes.text, bytes.rest);
  }

  lemma EmitTrailerMatches(t: TrailerPart, rest: string)
    requires TrailerWellFormed(t) && FollowsMatch(rest)
    ensures MatchTrailer(EmitTrailer(t, rest)) == Some((t, rest))
  {
    var frac := t.timeFrac + rest;
    var time := FieldThen(t.timeWhole, '.', frac);
    var q5 := QuoteThen(t.rbUser, time);
    var q4 := QuoteThen(t.requestId, q5);
    var q3 := QuoteThen(t.forwardedFor, q4);
    var q2 := QuoteThen(t.userAgent, q3);
    var s := QuoteThen(t.referer, q2);
    assert s == EmitTrailer(t, rest);
    QuotedExact(s, t.referer, q2);
    QuotedExact(q2, t.userAgent, q3);
    QuotedExact(q3, t.forwardedFor, q4);
    QuotedExact(q4, t.requestId, q5);
    QuotedExact(q5, t.rbUser, time);
    FieldExact(time, IsDigit, AtLeast(1), '.', t.timeWhole, frac);
    SpanExact(frac, IsDigit, AtLeast(1), t.timeFrac, rest);
  }

  lemma MatchedTrailer(s: string)
    requires MatchTrailer(s).Some?
    ensures TrailerWellFormed(MatchTrailer(s).value.0)
    ensures FollowsMatch(MatchTrailer(s).value.1)
    ensures s == EmitTrailer(MatchTrailer(s).value.0, MatchTrailer(s).value.1)
  {
    var referer := Quoted(s).value;
    QuotedExact(s, referer.text, referer.rest);
    var agent := Quoted(referer.rest).value;
    QuotedExact(referer.rest, agent.text, agent.rest);
    var forwarded := Quoted(agent.rest).value;
    QuotedExact(agent.rest, forwarded.text, forwarded.rest);
    var requestId := Quoted(forwarded.rest).value;
    QuotedExact(forwarded.rest, requestId.text, requestId.rest);
    var rbUser := Quoted(requestId.rest).value;
    QuotedExact(requestId.rest, rbUser.text, rbUser.rest);
    var whole := Field(rbUser.rest, IsDigit, AtLeast(1), '.').value;
    FieldExact(rbUser.rest, IsDigit, AtLeast(1), '.', whole.text, whole.rest);
    var frac := Span(whole.rest, IsDigit, AtLeast(1)).value;
    SpanExact(whole.rest, IsDigit, AtLeast(1), frac.text, frac.rest);
  }

  /** The recogniser is exact: it matches `s` with fields `f`, leaving `rest`, if and
      only if `s` is `f` rendered, followed by `rest`, for a well-formed `f` and a
      `rest` that cannot extend the last field. */
  lemma MatchPrefixExact(s: string, f: LineFields, rest: string)
    ensures MatchPrefix(s) == Some((f, rest)) <==> WellFormed(f) && FollowsMatch(rest) && s == Emit(f, rest)
  {
    if MatchPrefix(s) == Some((f, rest)) {
      MatchedPrefix(s);
    }
    if WellFormed(f) && FollowsMatch(rest) && s == Emit(f, rest) {
      EmitMatches(f, rest);
    }
  }

  /** What the recogniser matches is a well-formed record rendered, followed by
      admissible trailing text. */
  lemma MatchedPrefix(s: string)
    requires MatchPrefix(s).Some?
    ensures var (f, rest) := MatchPrefix(s).value;
      WellFormed(f) && FollowsMatch(rest) && s == Emit(f, rest)
  {
    var client := MatchClient(s).value;
    MatchedClient(s);
    var req := MatchRequest(client.1).value;
    MatchedRequest(client.1);
    MatchedTrailer(req.1);
  }

  /** A well-formed record rendered, followed by admissible trailing text, is matched
      with its own fields. */
  lemma EmitMatches(f: LineFields, rest: string)
    requires WellFormed(f) && FollowsMatch(rest)
    ensures MatchPrefix(Emit(f, rest)) == Some((f, rest))
  {
    var t := EmitTrailer(f.trailer, rest);
    var r := EmitRequest(f.req, t);
    EmitTrailerMatches(f.trailer, rest);
    EmitRequestMatches(f.req, t);
    EmitClientMatches(f.client, r);
  }

  /** A record `parse_log_line` yields: the URL and the exact value of `request_time`. */
  datatype Entry = Entry(url: string, requestTime: real)

  /** The URL of a request field: its second whitespace-separated token when it has
      at least two, and otherwise the whole field. */
  function UrlOf(request: string): (url: string)
    ensures url == request || IsWord(url)
  {
    var parts := Split(request);
    if |parts| >= 2 then parts[1] else request
  }

  /** For a request field of two or more words (`GET /path HTTP/1.1`), the URL is the
      second word, whatever whitespace comes before, between and after the words. */
  lemma UrlOfWords(gaps: seq<string>, words: seq<string>, trail: string)
    requires |words| >= 2 && |gaps| == |words| && Spacing(gaps, trail)
    requires forall i :: 0 <= i < |words| ==> IsWord(words[i])
    ensures UrlOf(Layout(gaps, words, trail)) == words[1]
  {
    SplitLayout(gaps, words, trail);
  }

  /** A request field of at most one word, whitespace around it included, is its own
      URL: the field is kept whole, not stripped. */
  lemma UrlOfFewWords(gaps: seq<string>, words: seq<string>, trail: string)
    requires |words| <= 1 && |gaps| == |words| && Spacing(gaps, trail)
    requires forall i :: 0 <= i < |words| ==> IsWord(words[i])
    ensures UrlOf(Layout(gaps, words, trail)) == Layout(gaps, words, trail)
  {
    SplitLayout(gaps, words, trail);
  }

  /** A request field with no whitespace in it (a bare path, or empty) is its own URL. */
  lemma UrlOfSingleWord(request: string)
    requires All(request, IsNonSpace)
    ensures UrlOf(request) == request
  {
    if request != [] {
      SplitJoin([request]);
    }
  }

  /** The exact decimal value written `whole.frac`, which `float(...)` approximates. */
  function RequestTime(whole: string, frac: string): (t: real)
    ensures DigitsValue(whole) as real <= t < DigitsValue(whole) as real + 1.0
  {
    FractionBelowOne(DigitsValue(frac), Pow10(|frac|));
    DigitsValue(whole) as real + DigitsValue(frac) as real / Pow10(|frac|) as real
  }

  lemma FractionBelowOne(n: nat, p: nat)
    requires n < p
    ensures 0.0 <= n as real / p as real < 1.0
  {
  }

  /** The value is the integer the digits of `whole` and `frac` denote together,
      divided by ten to the number of fraction digits. */
  lemma {:induction false} RequestTimeScaled(whole: string, frac: string)
    ensures RequestTime(whole, frac) == DigitsValue(whole + frac) as real / Pow10(|frac|) as real
  {
    DigitsValueAppend(whole, frac);
    Rescale(DigitsValue(whole), DigitsValue(frac), Pow10(|frac|), DigitsValue(whole + frac));
  }

  lemma Rescale(w: nat, x: nat, p: nat, d: nat)
    requires p > 0
    requires d == w * p + x
    ensures w as real + x as real / p as real == d as real / p as real
  {
    CastLinear(w, p, x);
  }

  lemma CastLinear(w: int, p: int, x: int)
    ensures (w * p + x) as real == w as real * p as real + x as real
  {
  }

  /** The record built from a successful match. */
  function EntryOf(f: LineFields): Entry {
    Entry(UrlOf(f.req.request), RequestTime(f.trailer.timeWhole, f.trailer.timeFrac))
  }

  /** `parse_log_line`: strip the line, match the pattern as a prefix, and build the
      record; None when the stripped line does not match. */
  function ParseLine(line: string): (r: Option<Entry>)
    ensures r.Some? ==> r.value.requestTime >= 0.0
  {
    var m :- MatchPrefix(Strip(line));
    Some(EntryOf(m.0))
  }

  lemma LastOfAppend(a: string, b: string)
    requires b != []
    ensures (a + b)[|a + b| - 1] == b[|b| - 1]
  {
  }

  lemma LastOfFieldThen(w: string, sep: char, r: string)
    requires r != []
    ensures FieldThen(w, sep, r)[|FieldThen(w, sep, r)| - 1] == r[|r| - 1]
  {
    LastOfAppend([sep], r);
    LastOfAppend(w, [sep] + r);
  }

  lemma LastOfQuoteThen(q: string, r: string)
    requires r != []
    ensures QuoteThen(q, r)[|QuoteThen(q, r)| - 1] == r[|r| - 1]
  {
    LastOfAppend([' '], r);
    LastOfFieldThen(q, '"', [' '] + r);
    LastOfAppend(['"'], FieldThen(q, '"', [' '] + r));
  }

  lemma LastOfEmitClient(c: ClientPart, r: string)
    requires r != []
    ensures EmitClient(c, r)[|EmitClient(c, r)| - 1] == r[|r| - 1]
  {
    LastOfEmitIdents(c, r);
    LastOfEmitAddress(c.remoteAddr, EmitIdents(c, r));
  }

  lemma LastOfEmitIdents(c: ClientPart, r: string)
    requires r != []
    ensures EmitIdents(c, r)[|EmitIdents(c, r)| - 1] == r[|r| - 1]
  {
    var gap2 := Spaces(c.ipGap) + r;
    var ip := c.realIp + gap2;
    var gap1 := Spaces(c.userGap) + ip;
    LastOfAppend(Spaces(c.ipGap), r);
    LastOfAppend(c.realIp, gap2);
    LastOfAppend(Spaces(c.userGap), ip);
    LastOfAppend(c.remoteUser, gap1);
  }

  lemma LastOfEmitAddress(a: Address, r: string)
    requires r != []
    ensures EmitAddress(a, r)[|EmitAddress(a, r)| - 1] == r[|r| - 1]
  {
    var d := FieldThen(a.d, ' ', r);
    var c := FieldThen(a.c, '.', d);
    var b := FieldThen(a.b, '.', c);
    LastOfFieldThen(a.d, ' ', r);
    LastOfFieldThen(a.c, '.', d);
    LastOfFieldThen(a.b, '.', c);
    LastOfFieldThen(a.a, '.', b);
  }

  lemma LastOfEmitRequest(q: RequestPart, r: string)
    requires r != []
    ensures EmitRequest(q, r)[|EmitRequest(q, r)| - 1] == r[|r| - 1]
  {
    var bytes := FieldThen(q.bodyBytesSent, ' ', r);
    var status := FieldThen(q.status, ' ', bytes);
    var req := QuoteThen(q.request, status);
    var time := FieldThen(q.timeLocal, ']', [' '] + req);
    LastOfFieldThen(q.bodyBytesSent, ' ', r);
    LastOfFieldThen(q.status, ' ', bytes);
    LastOfQuoteThen(q.request, status);
    LastOfAppend([' '], req);
    LastOfFieldThen(q.timeLocal, ']', [' '] + req);
    LastOfAppend(['['], time);
  }

  lemma LastOfEmitTrailer(t: TrailerPart, rest: string)
    requires t.timeFrac != []
    ensures var e := EmitTrailer(t, rest);
      e[|e| - 1] == if rest == [] then t.timeFrac[|t.timeFrac| - 1] else rest[|rest| - 1]
  {
    var frac := t.timeFrac + rest;
    var time := FieldThen(t.timeWhole, '.', frac);
    var q5 := QuoteThen(t.rbUser, time);
    var q4 := QuoteThen(t.requestId, q5);
    var q3 := QuoteThen(t.forwardedFor, q4);
    var q2 := QuoteThen(t.userAgent, q3);
    if rest == [] {
      assert frac == t.timeFrac;
    } else {
      LastOfAppend(t.timeFrac, rest);
    }
    LastOfFieldThen(t.timeWhole, '.', frac);
    LastOfQuoteThen(t.rbUser, time);
    LastOfQuoteThen(t.requestId, q5);
    LastOfQuoteThen(t.forwardedFor, q4);
    LastOfQuoteThen(t.userAgent, q3);
    LastOfQuoteThen(t.referer, q2);
  }

  /** A rendered record line with admissible trailing text has no whitespace at either
      end: it starts with a digit and ends with a digit of `request_time` or with the
      last character of `rest`. */
  lemma EmitTrimmed(f: LineFields, rest: string)
    requires WellFormed(f)
    requires rest == [] || !IsSpace(rest[|rest| - 1])
    ensures Trimmed(Emit(f, rest))
  {
    FirstOfEmit(f, rest);
    LastOfEmit(f, rest);
    var a, frac := f.client.remoteAddr.a, f.trailer.timeFrac;
    DigitNotSpace(a[0]);
    DigitNotSpace(frac[|frac| - 1]);
  }

  lemma DigitNotSpace(c: char)
    requires IsDigit(c)
    ensures !IsSpace(c)
  {
  }

  /** A rendered record line starts with the first digit of the remote address. */
  lemma FirstOfEmit(f: LineFields, rest: string)
    requires f.client.remoteAddr.a != []
    ensures Emit(f, rest) != [] && Emit(f, rest)[0] == f.client.remoteAddr.a[0]
  {
  }

  /** A rendered record line ends with the last character of `rest`, or with the last
      digit of `request_time` when there is no `rest`. */
  lemma LastOfEmit(f: LineFields, rest: string)
    requires f.trailer.timeFrac != []
    ensures var e := Emit(f, rest);
      e != [] && e[|e| - 1] == if rest == [] then f.trailer.timeFrac[|f.trailer.timeFrac| - 1] else rest[|rest| - 1]
  {
    var t := EmitTrailer(f.trailer, rest);
    var r := EmitRequest(f.req, t);
    LastOfEmitTrailer(f.trailer, rest);
    LastOfEmitRequest(f.req, t);
    LastOfEmitClient(f.client, r);
  }

  /** Any well-formed record line, with whitespace around it and any trailing text
      that cannot extend `request_time`, parses to that record's URL and time. */
  lemma ParseLineOf(lead: string, f: LineFields, rest: string, trail: string)
    requires All(lead, IsSpace) && All(trail, IsSpace)
    requires WellFormed(f) && FollowsMatch(rest)
    requires rest == [] || !IsSpace(rest[|rest| - 1])
    ensures ParseLine(lead + Emit(f, rest) + trail) == Some(EntryOf(f))
  {
    var e := Emit(f, rest);
    EmitTrimmed(f, rest);
    StripOf(lead, e, trail);
    MatchPrefixExact(e, f, rest);
  }

  /** A rendered record line with nothing around it parses to its record. */
  lemma ParseRendered(f: LineFields)
    requires WellFormed(f)
    ensures ParseLine(Emit(f, [])) == Some(EntryOf(f))
  {
    var none: string := [];
    Bare(Emit(f, none));
    ParseLineOf(none, f, none, none);
  }

  lemma Bare(line: string)
    ensures [] + line + [] == line
  {
  }

  /** A line is rejected exactly when its stripped text is no well-formed record line
      followed by admissible trailing text. */
  lemma ParseLineNone(line: string)
    ensures ParseLine(line).None? <==>
      forall f: LineFields, rest: string :: !(WellFormed(f) && FollowsMatch(rest) && Strip(line) == Emit(f, rest))
  {
    var s := Strip(line);
    if ParseLine(line).None? {
      NoMatchNoFields(s);
    } else {
      var m := MatchPrefix(s).value;
      MatchPrefixExact(s, m.0, m.1);
    }
  }

  /** Text the recogniser rejects is no well-formed record line with admissible
      trailing text. */
  lemma NoMatchNoFields(s: string)
    requires MatchPrefix(s).None?
    ensures forall f: LineFields, rest: string :: !(WellFormed(f) && FollowsMatch(rest) && s == Emit(f, rest))
  {
    forall f: LineFields, rest: string
      ensures !(WellFormed(f) && FollowsMatch(rest) && s == Emit(f, rest))
    {
      MatchPrefixExact(s, f, rest);
    }
  }

  // The parser's test lines. ParseLineSample and ParseLineRejectsSample state the test's
  // two cases; every lemma between them is a helper for the sample's literals (their
  // well-formedness, the words of the request and user agent, the time 0.390), not part
  // of the model.

  /** The fields of the record line in the parser's test: rendered (with the two
      spaces after `remote_user` the test line has), the line parses to the request's
      path and to 0.39 exactly. */
  lemma ParseLineSample(c: ClientPart, q: RequestPart, t: TrailerPart)
    requires c == ClientPart(Address("1", "196", "116", "32"), "-", 2, "-", 1)
    requires q == RequestPart("29/Jun/2017:03:50:22 +0300", "GET" + " " + "/api/v2/banner/25019354" + " " + "HTTP/1.1",
                              "200", "927")
    requires t == TrailerPart("-",
                              "Lynx/2.8.8dev.9" + " " + "libwww-FM/2.14" + " " + "SSL-MM/1.4.1" + " " + "GNUTLS/2.10.5",
                              "-",
                              "1498697422-2190034393-4708-9752759", "dc7161be3", "0", "390")
    ensures ParseLine(Emit(LineFields(c, q, t), [])) == Some(Entry("/api/v2/banner/25019354", 0.39))
  {
    SampleClientWellFormed(c);
    SampleRequestWellFormed(q);
    SampleTrailerWellFormed(t);
    var request, whole, frac := q.request, t.timeWhole, t.timeFrac;
    UrlOfSample(request, "GET", "/api/v2/banner/25019354", "HTTP/1.1");
    RequestTimeSample(whole, frac);
    ParseRenderedAs(LineFields(c, q, t), "/api/v2/banner/25019354", 0.39);
  }

  lemma ParseRenderedAs(f: LineFields, url: string, time: real)
    requires WellFormed(f)
    requires UrlOf(f.req.request) == url && RequestTime(f.trailer.timeWhole, f.trailer.timeFrac) == time
    ensures ParseLine(Emit(f, [])) == Some(Entry(url, time))
  {
    ParseRendered(f);
  }

  lemma SampleClientWellFormed(c: ClientPart)
    requires c == ClientPart(Address("1", "196", "116", "32"), "-", 2, "-", 1)
    ensures ClientWellFormed(c)
  {
    assert IsWord("-");
    assert IsOctet("1") && IsOctet("196") && IsOctet("116") && IsOctet("32");
  }

  lemma SampleRequestWellFormed(q: RequestPart)
    requires q == RequestPart("29/Jun/2017:03:50:22 +0300", "GET" + " " + "/api/v2/banner/25019354" + " " + "HTTP/1.1",
                              "200", "927")
    ensures RequestWellFormed(q)
  {
    assert All(q.timeLocal, IsNotBracket);
    var a, b, c := "GET", "/api/v2/banner/25019354", "HTTP/1.1";
    SampleWord(a);
    SampleWord(b);
    SampleWord(c);
    SpacedAll(a, b, c, IsNotQuote);
    assert All(q.status, IsDigit);
  }

  lemma SampleTrailerWellFormed(t: TrailerPart)
    requires t == TrailerPart("-",
                              "Lynx/2.8.8dev.9" + " " + "libwww-FM/2.14" + " " + "SSL-MM/1.4.1" + " " + "GNUTLS/2.10.5",
                              "-",
                              "1498697422-2190034393-4708-9752759", "dc7161be3", "0", "390")
    ensures TrailerWellFormed(t)
  {
    SampleQuoteFree(t.referer);
    SampleUserAgent(t.userAgent, "Lynx/2.8.8dev.9", "libwww-FM/2.14", "SSL-MM/1.4.1", "GNUTLS/2.10.5");
    SampleQuoteFree(t.requestId);
    SampleQuoteFree(t.rbUser);
    assert IsDigits(t.timeWhole) && IsDigits(t.timeFrac);
  }

  lemma SampleQuoteFree(w: string)
    requires w == "-" || w == "1498697422-2190034393-4708-9752759" || w == "dc7161be3"
    ensures All(w, IsNotQuote)
  {
  }

  lemma SampleUserAgent(w: string, a: string, b: string, c: string, d: string)
    requires a == "Lynx/2.8.8dev.9" && b == "libwww-FM/2.14" && c == "SSL-MM/1.4.1" && d == "GNUTLS/2.10.5"
    requires w == a + " " + b + " " + c + " " + d
    ensures All(w, IsNotQuote)
  {
    SampleAgentWord(a);
    SampleAgentWord(b);
    SampleAgentWord(c);
    SampleAgentWord(d);
    SpacedAll(a, b, c, IsNotQuote);
    AllAppend(a + " " + b + " " + c, " ", IsNotQuote);
    AllAppend(a + " " + b + " " + c + " ", d, IsNotQuote);
  }

  lemma SampleAgentWord(w: string)
    requires w == "Lynx/2.8.8dev.9" || w == "libwww-FM/2.14" || w == "SSL-MM/1.4.1" || w == "GNUTLS/2.10.5"
    ensures All(w, IsNotQuote)
  {
  }

  lemma UrlOfSample(request: string, a: string, b: string, c: string)
    requires a == "GET" && b == "/api/v2/banner/25019354" && c == "HTTP/1.1"
    requires request == a + " " + b + " " + c
    ensures UrlOf(request) == b
  {
    SampleWord(a);
    SampleWord(b);
    SampleWord(c);
    JoinThree(a, b, c);
    Spaced(a, b, c);
    WordsOfThree(a, b, c);
    SplitJoin([a, b, c]);
  }

  lemma SampleWord(w: string)
    requires w == "GET" || w == "/api/v2/banner/25019354" || w == "HTTP/1.1"
    ensures IsWord(w) && All(w, IsNotQuote)
  {
  }

  lemma Spaced(a: string, b: string, c: string)
    ensures a + " " + b + " " + c == a + ([' '] + (b + ([' '] + c)))
  {
  }

  lemma WordsOfThree(a: string, b: string, c: string)
    requires IsWord(a) && IsWord(b) && IsWord(c)
    ensures forall i :: 0 <= i < |[a, b, c]| ==> IsWord([a, b, c][i])
  {
  }

  /** Three strings whose characters satisfy `p`, joined by spaces that satisfy it. */
  lemma SpacedAll(a: string, b: string, c: string, p: char -> bool)
    requires All(a, p) && All(b, p) && All(c, p) && p(' ')
    ensures All(a + " " + b + " " + c, p)
  {
    AllAppend(a, " ", p);
    AllAppend(a + " ", b, p);
    AllAppend(a + " " + b, " ", p);
    AllAppend(a + " " + b + " ", c, p);
  }

  lemma JoinThree(a: string, b: string, c: string)
    ensures Join([a, b, c]) == a + ([' '] + (b + ([' '] + c)))
  {
    assert [a, b, c][1..] == [b, c];
    assert [b, c][1..] == [c];
    assert Join([c]) == c;
    assert Join([b, c]) == b + ([' '] + c);
  }

  lemma RequestTimeSample(whole: string, frac: string)
    requires whole == "0" && frac == "390"
    ensures RequestTime(whole, frac) == 0.39
  {
    assert DigitsValue(whole) == 0;
    assert DigitsValue(frac) == 390 by {
      assert frac[..2] == "39" && "39"[..1] == "3";
    }
  }

  /** The test's malformed line is rejected: it does not start with a digit. */
  lemma ParseLineRejectsSample(line: string)
    requires line == "invalid log line"
    ensures ParseLine(line) == None
  {
    assert Trimmed(line);
    StripOf([], line, []);
    assert [] + line + [] == line;
    assert Run(line, IsDigit).text == [];
  }
}

=== FILE: log_files.dfy ===
/** Choosing the log file to analyse (`LOG_FILE_PATTERN` and `find_latest_log` in
    src/log_analyzer/log_analyzer.py) and naming the report it produces (`main`).
    The directory listing is a parameter: `None` for a directory that does not
    exist, otherwise the names `os.listdir` returns, in its order. */
module LogFiles {
  import opened Wrappers
  import opened Text

  /** The fixed part of a log file name, before its `YYYYMMDD` token. */
  const NamePrefix: string := "nginx-access-ui.log-"

  /** A calendar date as `datetime.strptime` builds it (the time part is always midnight). */
  datatype Date = Date(year: int, month: int, day: int)

  /** What the file-name pattern captures: the eight-digit date token and the
      extension group, `".gz"` or, when that optional group did not take part, `""`. */
  datatype NameMatch = NameMatch(token: string, extension: string)

  /** The source's `LogFileInfo` record. */
  datatype LogFileInfo = LogFileInfo(path: string, date: Date, extension: string)

  /** `LOG_FILE_PATTERN.match(name)`: the prefix, eight digits, an optional `.gz`, then
      the `$` anchor. Python's `$` also matches just before a final newline, so a name
      may end in one `"\n"` that the match leaves out. */
  function MatchLogName(name: string): (r: Option<NameMatch>)
    ensures r.Some? ==> |r.value.token| == 8 && All(r.value.token, IsDigit)
    ensures r.Some? ==> r.value.extension == "" || r.value.extension == ".gz"
  {
    var n := |NamePrefix|;
    if |name| < n + 8 || name[..n] != NamePrefix || !All(name[n..n + 8], IsDigit) then None
    else
      var token := name[n..n + 8];
      var tail := name[n + 8..];
      if tail == "" || tail == "\n" then Some(NameMatch(token, ""))
      else if tail == ".gz" || tail == ".gz\n" then Some(NameMatch(token, ".gz"))
      else None
  }

  /** The names the pattern accepts: prefix, an eight-digit token, an optional `.gz`
      and an optional final newline. */
  predicate IsLogName(name: string, token: string, extension: string) {
    && |token| == 8 && All(token, IsDigit)
    && (extension == "" || extension == ".gz")
    && (name == NamePrefix + token + extension || name == NamePrefix + token + extension + "\n")
  }

  /** The recogniser accepts exactly the names of the documented shape, and reports
      the token and extension they were built from. */
  lemma MatchLogNameExact(name: string, token: string, extension: string)
    ensures MatchLogName(name) == Some(NameMatch(token, extension)) <==> IsLogName(name, token, extension)
  {
    var n := |NamePrefix|;
    if IsLogName(name, token, extension) {
      var eol := if name == NamePrefix + token + extension then "" else "\n";
      assert name == NamePrefix + token + extension + eol;
      assert name[..n] == NamePrefix;
      assert name[n..n + 8] == token;
      assert name[n + 8..] == extension + eol;
    }
    if MatchLogName(name) == Some(NameMatch(token, extension)) {
      assert name == name[..n] + name[n..n + 8] + name[n + 8..];
    }
  }

  /** Gregorian leap years, as `datetime` uses them. */
  predicate IsLeapYear(y: int) {
    y % 4 == 0 && (y % 100 != 0 || y % 400 == 0)
  }

  function DaysInMonth(y: int, m: int): (r: int)
    requires 1 <= m <= 12
    ensures 28 <= r <= 31
  {
    if m == 2 then (if IsLeapYear(y) then 29 else 28)
    else if m == 4 || m == 6 || m == 9 || m == 11 then 30
    else 31
  }

  /** A date `datetime` accepts: years 1..9999, months 1..12, days within the month. */
  predicate ValidDate(d: Date) {
    1 <= d.year <= 9999 && 1 <= d.month <= 12 && 1 <= d.day <= DaysInMonth(d.year, d.month)
  }

  /** `datetime.strptime(token, "%Y%m%d")` on the eight digits the pattern captured.
      With exactly eight digits `%Y` takes four and `%m`, `%d` must take two each, so
      the call succeeds exactly when the three numbers form a valid date; `None`
      stands for the `ValueError` the source skips. */
  function ParseDate(token: string): (r: Option<Date>)
    requires |token| == 8 && All(token, IsDigit)
    ensures r.Some? ==> ValidDate(r.value)
  {
    var d := Date(DigitsValue(token[..4]), DigitsValue(token[4..6]), DigitsValue(token[6..]));
    if ValidDate(d) then Some(d) else None
  }

  /** The `%Y%m%d` rendering of a date. */
  function DateToken(d: Date): (r: string)
    requires ValidDate(d)
    ensures |r| == 8 && All(r, IsDigit)
  {
    Pad(d.year, 4) + Pad(d.month, 2) + Pad(d.day, 2)
  }

  /** Parsing a token gives a date exactly when the token is that valid date written
      as `YYYYMMDD`: the parse and the rendering are inverse. */
  lemma ParseDateExact(token: string, d: Date)
    requires |token| == 8 && All(token, IsDigit)
    ensures ParseDate(token) == Some(d) <==> ValidDate(d) && token == DateToken(d)
  {
    if ParseDate(token) == Some(d) {
      PadDigits(token[..4]);
      PadDigits(token[4..6]);
      PadDigits(token[6..]);
      assert token == token[..4] + token[4..6] + token[6..];
    }
    if ValidDate(d) && token == DateToken(d) {
      assert token[..4] == Pad(d.year, 4);
      assert token[4..6] == Pad(d.month, 2);
      assert token[6..] == Pad(d.day, 2);
      PadValue(d.year, 4);
      PadValue(d.month, 2);
      PadValue(d.day, 2);
    }
  }

  /** `a > b` on the `datetime` values: later calendar date. */
  predicate Later(a: Date, b: Date) {
    a.year > b.year
    || (a.year == b.year && a.month > b.month)
    || (a.year == b.year && a.month == b.month && a.day > b.day)
  }

  /** `os.path.join(dir, name)` for POSIX paths. */
  function JoinPath(dir: string, name: string): (r: string)
    ensures |r| >= |name| && r[|r| - |name|..] == name
  {
    if name != [] && name[0] == '/' then name
    else if dir == [] || dir[|dir| - 1] == '/' then dir + name
    else dir + "/" + name
  }

  /** What one directory entry contributes: its `LogFileInfo` when the name matches
      the pattern and its token is a valid date, `None` when it is skipped. */
  function Candidate(dir: string, name: string): (r: Option<LogFileInfo>)
    ensures r.Some? ==> ValidDate(r.value.date)
    ensures r.Some? ==> r.value.path == JoinPath(dir, name)
                        && IsLogName(name, DateToken(r.value.date), r.value.extension)
  {
    match MatchLogName(name)
    case None => None
    case Some(m) =>
      match ParseDate(m.token)
      case None => None
      case Some(d) =>
        MatchLogNameExact(name, m.token, m.extension);
        ParseDateExact(m.token, d);
        Some(LogFileInfo(JoinPath(dir, name), d, m.extension))
  }

  /** What each directory entry contributes, in listing order. */
  function Candidates(dir: string, names: seq<string>): (r: seq<Option<LogFileInfo>>)
    ensures |r| == |names|
    ensures forall i :: 0 <= i < |names| ==> r[i] == Candidate(dir, names[i])
  {
    seq(|names|, i requires 0 <= i < |names| => Candidate(dir, names[i]))
  }

  /** The state of `find_latest_log`'s loop after the given contributions: a
      candidate replaces the current best only when its date is strictly later. */
  function Latest(cs: seq<Option<LogFileInfo>>): Option<LogFileInfo> {
    if cs == [] then None
    else
      var best := Latest(cs[..|cs| - 1]);
      match cs[|cs| - 1]
      case None => best
      case Some(c) => if best.None? || Later(c.date, best.value.date) then Some(c) else best
  }

  /** `find_latest_log(log_dir)`: `listing` is `None` when the directory is missing. */
  function FindLatestLog(dir: string, listing: Option<seq<string>>): Option<LogFileInfo> {
    match listing
    case None => None
    case Some(names) => Latest(Candidates(dir, names))
  }

  /** Contribution `i` is present, no contribution has a later date, and every one
      before it has a strictly earlier date: the first of the latest. */
  ghost predicate FirstLatest(cs: seq<Option<LogFileInfo>>, i: int) {
    && 0 <= i < |cs|
    && cs[i].Some?
    && forall j :: 0 <= j < |cs| && cs[j].Some? ==>
         && !Later(cs[j].value.date, cs[i].value.date)
         && (j < i ==> Later(cs[i].value.date, cs[j].value.date))
  }

  /** The loop finds nothing exactly when nothing was contributed, and otherwise the
      first contribution carrying the latest date. */
  lemma {:induction false} LatestSpec(cs: seq<Option<LogFileInfo>>)
    ensures Latest(cs).None? <==> forall i :: 0 <= i < |cs| ==> cs[i].None?
    ensures Latest(cs).Some? ==> exists i :: FirstLatest(cs, i) && Latest(cs) == cs[i]
  {
    if cs != [] {
      var n := |cs| - 1;
      var prefix := cs[..n];
      LatestSpec(prefix);
      assert forall j :: 0 <= j < n ==> prefix[j] == cs[j];
      var best := Latest(prefix);
      match cs[n]
      case None =>
        if best.Some? {
          var i :| FirstLatest(prefix, i) && best == prefix[i];
          KeepsFirstLatest(cs, i);
        }
      case Some(c) =>
        if best.None? {
          assert FirstLatest(cs, n);
        } else {
          var i :| FirstLatest(prefix, i) && best == prefix[i];
          if Later(c.date, best.value.date) {
            NewFirstLatest(cs, i);
          } else {
            KeepsFirstLatest(cs, i);
          }
        }
    }
  }

  /** The first latest entry of the prefix stays so when the last entry is skipped or
      not strictly later. */
  lemma KeepsFirstLatest(cs: seq<Option<LogFileInfo>>, i: int)
    requires cs != [] && FirstLatest(cs[..|cs| - 1], i)
    requires cs[|cs| - 1].Some? ==> !Later(cs[|cs| - 1].value.date, cs[i].value.date)
    ensures FirstLatest(cs, i)
  {
    var prefix := cs[..|cs| - 1];
    assert forall j :: 0 <= j < |prefix| ==> prefix[j] == cs[j];
  }

  /** A last entry strictly later than the prefix's first latest one is the new first
      latest entry. */
  lemma NewFirstLatest(cs: seq<Option<LogFileInfo>>, i: int)
    requires cs != [] && FirstLatest(cs[..|cs| - 1], i)
    requires cs[|cs| - 1].Some? && Later(cs[|cs| - 1].value.date, cs[i].value.date)
    ensures FirstLatest(cs, |cs| - 1)
  {
    var prefix := cs[..|cs| - 1];
    assert forall j :: 0 <= j < |prefix| ==> prefix[j] == cs[j];
  }

  /** `find_latest_log` returns `None` exactly when the directory is missing or no
      entry is a matching name with a valid date; otherwise it returns the first
      entry, in listing order, whose date is the latest. */
  lemma FindLatestLogSpec(dir: string, listing: Option<seq<string>>)
    ensures FindLatestLog(dir, listing).None? <==>
      listing.None? || forall i :: 0 <= i < |listing.value| ==> Candidate(dir, listing.value[i]).None?
    ensures FindLatestLog(dir, listing).Some? ==>
      listing.Some? && exists i :: FirstLatest(Candidates(dir, listing.value), i)
                                   && FindLatestLog(dir, listing) == Candidate(dir, listing.value[i])
  {
    if listing.Some? {
      LatestSpec(Candidates(dir, listing.value));
    }
  }

  /** The report file name `main` derives: `report-YYYY.MM.DD.html`. */
  function ReportName(d: Date): (r: string)
    requires ValidDate(d)
    ensures |r| == 22
  {
    "report-" + Pad(d.year, 4) + "." + Pad(d.month, 2) + "." + Pad(d.day, 2) + ".html"
  }

  /** The report name carries the log's own date token, regrouped with dots. */
  lemma ReportNameOfToken(token: string, d: Date)
    requires |token| == 8 && All(token, IsDigit)
    requires ParseDate(token) == Some(d)
    ensures ReportName(d) == "report-" + token[..4] + "." + token[4..6] + "." + token[6..] + ".html"
  {
    ParseDateExact(token, d);
    assert token[..4] == Pad(d.year, 4);
    assert token[4..6] == Pad(d.month, 2);
    assert token[6..] == Pad(d.day, 2);
  }

  /** Distinct dates get distinct report names, so the "report already exists" check
      is about this very log date. */
  lemma ReportNameInjective(a: Date, b: Date)
    requires ValidDate(a) && ValidDate(b)
    requires ReportName(a) == ReportName(b)
    ensures a == b
  {
    ReportNameParts(a);
    ReportNameParts(b);
    PadInjective(a.year, b.year, 4);
    PadInjective(a.month, b.month, 2);
    PadInjective(a.day, b.day, 2);
  }

  /** Where the year, month and day sit in the report name. */
  lemma ReportNameParts(d: Date)
    requires ValidDate(d)
    ensures var s := ReportName(d);
      s[7..11] == Pad(d.year, 4) && s[12..14] == Pad(d.month, 2) && s[15..17] == Pad(d.day, 2)
  {
  }

  /** Numbers that fit the width are told apart by their padded digits. */
  lemma PadInjective(m: nat, n: nat, width: nat)
    requires m < Pow10(width) && n < Pow10(width)
    requires Pad(m, width) == Pad(n, width)
    ensures m == n
  {
    PadValue(m, width);
    PadValue(n, width);
  }

  /** The report path: `os.path.join(REPORT_DIR, report_filename)`. */
  function ReportPath(reportDir: string, d: Date): (r: string)
    requires ValidDate(d)
    ensures |r| >= 22 && r[|r| - 22..] == ReportName(d)
  {
    JoinPath(reportDir, ReportName(d))
  }

  /** A name of the documented shape whose token is a valid date is a candidate
      carrying that date and extension. */
  lemma CandidateOf(dir: string, name: string, token: string, extension: string, d: Date)
    requires IsLogName(name, token, extension)
    requires ValidDate(d) && DateToken(d) == token
    ensures Candidate(dir, name) == Some(LogFileInfo(JoinPath(dir, name), d, extension))
  {
    MatchLogNameExact(name, token, extension);
    ParseDateExact(token, d);
  }

  /** An entry is skipped exactly when its name is not of the documented shape with
      the token of a valid calendar date. */
  lemma CandidateNone(dir: string, name: string)
    ensures Candidate(dir, name).None? <==>
      forall d: Date, extension: string :: ValidDate(d) ==> !IsLogName(name, DateToken(d), extension)
  {
    var c := Candidate(dir, name);
    if c.Some? {
      assert ValidDate(c.value.date) && IsLogName(name, DateToken(c.value.date), c.value.extension);
    } else {
      forall d: Date, extension: string | ValidDate(d)
        ensures !IsLogName(name, DateToken(d), extension)
      {
        if IsLogName(name, DateToken(d), extension) {
          CandidateOf(dir, name, DateToken(d), extension, d);
        }
      }
    }
  }

  /** The dates of the test suite's three log names, written as their tokens. */
  lemma ExampleToken(d: Date, token: string)
    requires || (d == Date(2017, 6, 30) && token == "20170630")
             || (d == Date(2017, 6, 29) && token == "20170629")
             || (d == Date(2017, 7, 1) && token == "20170701")
    ensures ValidDate(d) && DateToken(d) == token
  {
    PadYear();
    var m, dd := if d.month == 6 then "06" else "07", if d.day == 30 then "30" else if d.day == 29 then "29" else "01";
    PadTwo(d.month, m);
    PadTwo(d.day, dd);
    TokenParts(token, m, dd);
  }

  lemma PadYear()
    ensures Pad(2017, 4) == "2017"
  {
  }

  lemma PadTwo(n: nat, s: string)
    requires || (n == 1 && s == "01") || (n == 6 && s == "06") || (n == 7 && s == "07")
             || (n == 29 && s == "29") || (n == 30 && s == "30")
    ensures Pad(n, 2) == s
  {
  }

  lemma TokenParts(token: string, m: string, dd: string)
    requires || (token == "20170630" && m == "06" && dd == "30")
             || (token == "20170629" && m == "06" && dd == "29")
             || (token == "20170701" && m == "07" && dd == "01")
    ensures token == "2017" + m + dd
  {
  }

  /** A test-suite log name is a candidate carrying its date and extension, in any
      directory. */
  lemma ExampleCandidate(dir: string, name: string, token: string, extension: string, d: Date)
    requires || (d == Date(2017, 6, 30) && token == "20170630")
             || (d == Date(2017, 6, 29) && token == "20170629")
             || (d == Date(2017, 7, 1) && token == "20170701")
    requires extension == "" || extension == ".gz"
    requires name == NamePrefix + token + extension
    ensures Candidate(dir, name) == Some(LogFileInfo(JoinPath(dir, name), d, extension))
  {
    ExampleToken(d, token);
    CandidateOf(dir, name, token, extension, d);
  }

  lemma ExampleName(name: string, token: string, extension: string)
    requires || (name == "nginx-access-ui.log-20170630" && token == "20170630" && extension == "")
             || (name == "nginx-access-ui.log-20170629.gz" && token == "20170629" && extension == ".gz")
             || (name == "nginx-access-ui.log-20170701.gz" && token == "20170701" && extension == ".gz")
    ensures name == NamePrefix + token + extension
  {
  }

  /** A name too short to hold the prefix and a date contributes nothing. */
  lemma OtherName(dir: string, name: string)
    requires name == "some-other.log"
    ensures Candidate(dir, name) == None
  {
    assert |name| < |NamePrefix| + 8;
  }

  /** Four entries contribute their four candidates, in order. */
  lemma CandidatesOfFour(dir: string, names: seq<string>, cs: seq<Option<LogFileInfo>>)
    requires |names| == 4 && |cs| == 4
    requires Candidate(dir, names[0]) == cs[0] && Candidate(dir, names[1]) == cs[1]
    requires Candidate(dir, names[2]) == cs[2] && Candidate(dir, names[3]) == cs[3]
    ensures Candidates(dir, names) == cs
  {
    var r := Candidates(dir, names);
    assert r[0] == cs[0] && r[1] == cs[1] && r[2] == cs[2] && r[3] == cs[3];
    SameFour(r, cs);
  }

  lemma SameFour<T>(r: seq<T>, cs: seq<T>)
    requires |r| == 4 && |cs| == 4
    requires r[0] == cs[0] && r[1] == cs[1] && r[2] == cs[2] && r[3] == cs[3]
    ensures r == cs
  {
    assert forall i | 0 <= i < 4 :: r[i] == cs[i];
  }

  /** The fold keeps the first date until a strictly later one arrives. */
  lemma ExampleLatest(a: LogFileInfo, b: LogFileInfo, c: LogFileInfo)
    requires a.date == Date(2017, 6, 30) && b.date == Date(2017, 6, 29) && c.date == Date(2017, 7, 1)
    ensures Latest([Some(a), Some(b), Some(c), None]) == Some(c)
  {
    var c1 := [Some(a)];
    var c2 := c1 + [Some(b)];
    var c3 := c2 + [Some(c)];
    var c4 := c3 + [None];
    assert c1[..0] == [] && c2[..1] == c1 && c3[..2] == c2 && c4[..3] == c3;
    assert Latest(c1) == Some(a);
    assert Latest(c2) == Some(a);
    assert Latest(c3) == Some(c);
    assert c4 == [Some(a), Some(b), Some(c), None];
  }

  /** The directory of the test suite, wherever it is: a plain log, two compressed
      ones and an unrelated file; the compressed log of 2017-07-01 is chosen, with a
      path that ends in its name. An empty directory yields nothing. */
  lemma FindLatestLogExample(dir: string, names: seq<string>)
    requires names == ["nginx-access-ui.log-20170630", "nginx-access-ui.log-20170629.gz",
                       "nginx-access-ui.log-20170701.gz", "some-other.log"]
    ensures FindLatestLog(dir, Some(names))
         == Some(LogFileInfo(JoinPath(dir, names[2]), Date(2017, 7, 1), ".gz"))
    ensures FindLatestLog(dir, Some([])) == None
  {
    var a := LogFileInfo(JoinPath(dir, names[0]), Date(2017, 6, 30), "");
    var b := LogFileInfo(JoinPath(dir, names[1]), Date(2017, 6, 29), ".gz");
    var c := LogFileInfo(JoinPath(dir, names[2]), Date(2017, 7, 1), ".gz");
    ExampleCandidates(dir, names, a, b, c);
    LatestOfFour(dir, names, a, b, c);
  }

  /** The test directory's four entries contribute the three dated logs and skip the
      other file. */
  lemma ExampleCandidates(dir: string, names: seq<string>, a: LogFileInfo, b: LogFileInfo, c: LogFileInfo)
    requires names == ["nginx-access-ui.log-20170630", "nginx-access-ui.log-20170629.gz",
                       "nginx-access-ui.log-20170701.gz", "some-other.log"]
    requires a == LogFileInfo(JoinPath(dir, names[0]), Date(2017, 6, 30), "")
    requires b == LogFileInfo(JoinPath(dir, names[1]), Date(2017, 6, 29), ".gz")
    requires c == LogFileInfo(JoinPath(dir, names[2]), Date(2017, 7, 1), ".gz")
    ensures Candidates(dir, names) == [Some(a), Some(b), Some(c), None]
  {
    ExampleName(names[0], "20170630", "");
    ExampleCandidate(dir, names[0], "20170630", "", Date(2017, 6, 30));
    ExampleName(names[1], "20170629", ".gz");
    ExampleCandidate(dir, names[1], "20170629", ".gz", Date(2017, 6, 29));
    ExampleName(names[2], "20170701", ".gz");
    ExampleCandidate(dir, names[2], "20170701", ".gz", Date(2017, 7, 1));
    OtherName(dir, names[3]);
    CandidatesOfFour(dir, names, [Some(a), Some(b), Some(c), None]);
  }

  /** Four entries of which the first three are candidates, the third strictly the
      latest, and the fourth is skipped: the third is chosen. */
  lemma LatestOfFour(dir: string, names: seq<string>, a: LogFileInfo, b: LogFileInfo, c: LogFileInfo)
    requires Candidates(dir, names) == [Some(a), Some(b), Some(c), None]
    requires a.date == Date(2017, 6, 30) && b.date == Date(2017, 6, 29) && c.date == Date(2017, 7, 1)
    ensures FindLatestLog(dir, Some(names)) == Some(c)
  {
    ExampleLatest(a, b, c);
  }
}

=== FILE: log_reader.dfy ===
/** The streaming reader (`parse_log_file` in src/log_analyzer/log_analyzer.py): it
    parses every line of the file, counts the lines and the lines that do not parse,
    and after the last line refuses the file when the error rate is above the
    threshold. The file is given as its sequence of lines. The counting does not
    depend on how a line is parsed, so it is stated for any line parser and then
    applied to ParseLine. */
module LogReader {
  import opened Wrappers
  import opened LineParser

  /** What reading a file ends in: the threshold was exceeded (the reader raises
      `ValueError`), or the records that were emitted together with the counters. */
  datatype Verdict =
    | ThresholdExceeded(total: nat, errors: nat)
    | Parsed(records: seq<Entry>, total: nat, errors: nat)

  /** The records of the lines that parse, in the order of the lines. */
  function Emitted(lines: seq<string>, parse: string -> Option<Entry>): (r: seq<Entry>)
    ensures |r| <= |lines|
  {
    if lines == [] then []
    else
      var last := parse(lines[|lines| - 1]);
      Emitted(lines[..|lines| - 1], parse) + (if last.Some? then [last.value] else [])
  }

  /** The number of lines that do not parse. */
  function ErrorCount(lines: seq<string>, parse: string -> Option<Entry>): (r: nat)
    ensures r <= |lines|
  {
    if lines == [] then 0
    else ErrorCount(lines[..|lines| - 1], parse) + (if parse(lines[|lines| - 1]).None? then 1 else 0)
  }

  /** The refusal rule: there was at least one line and the share of lines that did
      not parse is strictly above the threshold. A lower threshold refuses every file
      a higher one does. */
  predicate Exceeds(total: nat, errors: nat, threshold: real) {
    total > 0 && errors as real / total as real > threshold
  }

  /** The loop of `parse_log_file` and the check after it, for a given line parser. */
  method ReadLines(lines: seq<string>, threshold: real, parse: string -> Option<Entry>)
    returns (v: Verdict)
    ensures v.total == |lines| && v.errors == ErrorCount(lines, parse)
    ensures v.ThresholdExceeded? <==> Exceeds(|lines|, ErrorCount(lines, parse), threshold)
    ensures v.Parsed? ==> v.records == Emitted(lines, parse)
  {
    var records: seq<Entry> := [];
    var total: nat := 0;
    var errors: nat := 0;
    while total < |lines|
      invariant total <= |lines|
      invariant records == Emitted(lines[..total], parse)
      invariant errors == ErrorCount(lines[..total], parse)
    {
      assert lines[..total + 1][..total] == lines[..total];
      var parsed := parse(lines[total]);
      if parsed.Some? {
        records := records + [parsed.value];
      } else {
        errors := errors + 1;
      }
      total := total + 1;
    }
    assert lines[..total] == lines;
    if total > 0 && errors as real / total as real > threshold {
      v := ThresholdExceeded(total, errors);
    } else {
      v := Parsed(records, total, errors);
    }
  }

  /** `parse_log_file`, with the records collected instead of yielded one by one. */
  method ParseLogFile(lines: seq<string>, threshold: real) returns (v: Verdict)
    ensures v.total == |lines| && v.errors == ErrorCount(lines, ParseLine)
    ensures v.ThresholdExceeded? <==> Exceeds(|lines|, ErrorCount(lines, ParseLine), threshold)
    ensures v.Parsed? ==> v.records == Emitted(lines, ParseLine)
  {
    v := ReadLines(lines, threshold, ParseLine);
  }

  /** Reading a file in two pieces emits the records of the first piece and then
      those of the second, and counts the errors of both. */
  lemma {:induction false} EmittedAppend(a: seq<string>, b: seq<string>,
                                          parse: string -> Option<Entry>)
    ensures Emitted(a + b, parse) == Emitted(a, parse) + Emitted(b, parse)
    ensures ErrorCount(a + b, parse) == ErrorCount(a, parse) + ErrorCount(b, parse)
  {
    if b == [] {
      assert a + b == a;
    } else {
      var b' := b[..|b| - 1];
      assert (a + b)[..|a + b| - 1] == a + b';
      assert (a + b)[|a + b| - 1] == b[|b| - 1];
      EmittedAppend(a, b', parse);
    }
  }

  /** The records `parse_log_line` yields carry no negative request time, since the
      time is written with digits only. */
  lemma EmittedTimesNonNegative(lines: seq<string>)
    ensures forall k :: 0 <= k < |Emitted(lines, ParseLine)| ==>
      0.0 <= Emitted(lines, ParseLine)[k].requestTime
  {
    EmittedTimesFrom(lines, ParseLine);
  }

  /** A parser that never yields a negative time emits none. */
  lemma {:induction false} EmittedTimesFrom(lines: seq<string>, parse: string -> Option<Entry>)
    requires forall l :: parse(l).Some? ==> 0.0 <= parse(l).value.requestTime
    ensures forall k :: 0 <= k < |Emitted(lines, parse)| ==>
      0.0 <= Emitted(lines, parse)[k].requestTime
  {
    if lines != [] {
      var init := lines[..|lines| - 1];
      var last := parse(lines[|lines| - 1]);
      EmittedTimesFrom(init, parse);
      assert Emitted(lines, parse) == Emitted(init, parse) + (if last.Some? then [last.value] else []);
    }
  }

  /** Every line is either emitted as a record or counted as an error. */
  lemma {:induction false} EmittedPlusErrors(lines: seq<string>, parse: string -> Option<Entry>)
    ensures |Emitted(lines, parse)| + ErrorCount(lines, parse) == |lines|
  {
    if lines != [] {
      EmittedPlusErrors(lines[..|lines| - 1], parse);
    }
  }

  /** A single line emits its record when it parses and is an error otherwise. */
  lemma EmittedOne(line: string, parse: string -> Option<Entry>)
    ensures Emitted([line], parse) == if parse(line).Some? then [parse(line).value] else []
    ensures ErrorCount([line], parse) == if parse(line).Some? then 0 else 1
  {
    assert [line][..0] == [];
  }

  /** When every line parses, the records are the lines' records one for one and no
      error is counted. */
  lemma {:induction false} EmittedAllParsed(lines: seq<string>, parse: string -> Option<Entry>)
    requires forall i :: 0 <= i < |lines| ==> parse(lines[i]).Some?
    ensures |Emitted(lines, parse)| == |lines| && ErrorCount(lines, parse) == 0
    ensures forall i :: 0 <= i < |lines| ==> Emitted(lines, parse)[i] == parse(lines[i]).value
  {
    if lines != [] {
      var init := lines[..|lines| - 1];
      assert forall i :: 0 <= i < |init| ==> init[i] == lines[i];
      EmittedAllParsed(init, parse);
    }
  }

  /** When no line parses, nothing is emitted and every line is an error. */
  lemma {:induction false} EmittedNoneParsed(lines: seq<string>, parse: string -> Option<Entry>)
    requires forall i :: 0 <= i < |lines| ==> parse(lines[i]).None?
    ensures Emitted(lines, parse) == [] && ErrorCount(lines, parse) == |lines|
  {
    if lines != [] {
      var init := lines[..|lines| - 1];
      assert forall i :: 0 <= i < |init| ==> init[i] == lines[i];
      EmittedNoneParsed(init, parse);
    }
  }

  /** A rate exactly equal to the threshold does not refuse the file. */
  lemma RateAtThresholdPasses(total: nat, errors: nat)
    requires total > 0
    ensures !Exceeds(total, errors, errors as real / total as real)
  {
  }

  /** An empty file is never refused, whatever the threshold. */
  lemma EmptyFilePasses(lines: seq<string>, parse: string -> Option<Entry>, threshold: real)
    requires lines == []
    ensures !Exceeds(|lines|, ErrorCount(lines, parse), threshold)
  {
  }

  /** With a threshold of one or more no file is refused, since at most every line
      can be an error. */
  lemma {:induction false} FullThresholdPasses(lines: seq<string>, parse: string -> Option<Entry>,
                                                threshold: real)
    requires threshold >= 1.0
    ensures !Exceeds(|lines|, ErrorCount(lines, parse), threshold)
  {
    if |lines| > 0 {
      RatioAtMostOne(ErrorCount(lines, parse), |lines|);
    }
  }

  lemma RatioAtMostOne(n: nat, d: nat)
    requires 0 < d && n <= d
    ensures n as real / d as real <= 1.0
  {
  }

  /** A file whose every line parses is accepted under any threshold that is not
      negative. */
  lemma CleanFilePasses(lines: seq<string>, parse: string -> Option<Entry>, threshold: real)
    requires forall i :: 0 <= i < |lines| ==> parse(lines[i]).Some?
    requires threshold >= 0.0
    ensures !Exceeds(|lines|, ErrorCount(lines, parse), threshold)
  {
    EmittedAllParsed(lines, parse);
    if |lines| > 0 {
      ZeroRatio(|lines|);
    }
  }

  lemma ZeroRatio(d: nat)
    requires d > 0
    ensures 0 as real / d as real == 0.0
  {
  }
}

=== FILE: real_seq.dfy ===
/** Sums, extremes and the median of a sequence of request times, computed exactly
    over the reals: the `sum`-as-you-go, `max(...)` and `statistics.median(...)`
    that `calculate_statistics` applies to each URL's samples. */
module RealSeq {

  /** The total of the samples, added in order from the first. */
  function Sum(xs: seq<real>): real {
    if xs == [] then 0.0 else Sum(xs[..|xs| - 1]) + xs[|xs| - 1]
  }

  lemma {:induction false} SumAppend(a: seq<real>, b: seq<real>)
    ensures Sum(a + b) == Sum(a) + Sum(b)
  {
    if b == [] {
      assert a + b == a;
    } else {
      assert (a + b)[..|a + b| - 1] == a + b[..|b| - 1];
      SumAppend(a, b[..|b| - 1]);
    }
  }

  /** The largest sample. */
  function Max(xs: seq<real>): (m: real)
    requires xs != []
    ensures m in xs
    ensures forall i :: 0 <= i < |xs| ==> xs[i] <= m
  {
    if |xs| == 1 then xs[0]
    else
      var m := Max(xs[1..]);
      assert forall i :: 1 <= i < |xs| ==> xs[i] == xs[1..][i - 1];
      if xs[0] >= m then xs[0] else m
  }

  /** The smallest sample. */
  function Min(xs: seq<real>): (m: real)
    requires xs != []
    ensures m in xs
    ensures forall i :: 0 <= i < |xs| ==> m <= xs[i]
  {
    if |xs| == 1 then xs[0]
    else
      var m := Min(xs[1..]);
      assert forall i :: 1 <= i < |xs| ==> xs[i] == xs[1..][i - 1];
      if xs[0] <= m then xs[0] else m
  }

  /** A sum of samples none of which exceeds `m` is at most `m` per sample. */
  lemma {:induction false} SumAtMost(xs: seq<real>, m: real)
    requires forall i :: 0 <= i < |xs| ==> xs[i] <= m
    ensures Sum(xs) <= |xs| as real * m
  {
    if xs != [] {
      var init := xs[..|xs| - 1];
      assert forall i :: 0 <= i < |init| ==> init[i] == xs[i];
      SumAtMost(init, m);
    }
  }

  /** A sum of samples none of which is below `m` is at least `m` per sample. */
  lemma {:induction false} SumAtLeast(xs: seq<real>, m: real)
    requires forall i :: 0 <= i < |xs| ==> m <= xs[i]
    ensures |xs| as real * m <= Sum(xs)
  {
    if xs != [] {
      var init := xs[..|xs| - 1];
      assert forall i :: 0 <= i < |init| ==> init[i] == xs[i];
      SumAtLeast(init, m);
    }
  }

  /** The arithmetic mean of the samples. */
  function Mean(xs: seq<real>): real
    requires xs != []
  {
    Sum(xs) / |xs| as real
  }

  /** The mean lies between the smallest and the largest sample. */
  lemma {:induction false} MeanBounds(xs: seq<real>)
    requires xs != []
    ensures Min(xs) <= Mean(xs) <= Max(xs)
  {
    MeanAtMostMax(xs);
    MeanAtLeastMin(xs);
  }

  lemma {:induction false} MeanAtMostMax(xs: seq<real>)
    requires xs != []
    ensures Mean(xs) <= Max(xs)
  {
    var hi := Max(xs);
    SumAtMost(xs, hi);
    DivideAtMost(Sum(xs), |xs| as real, hi);
  }

  lemma {:induction false} MeanAtLeastMin(xs: seq<real>)
    requires xs != []
    ensures Min(xs) <= Mean(xs)
  {
    var lo := Min(xs);
    SumAtLeast(xs, lo);
    DivideAtLeast(Sum(xs), |xs| as real, lo);
  }

  lemma DivideAtMost(s: real, n: real, hi: real)
    requires n > 0.0 && s <= n * hi
    ensures s / n <= hi
  {
  }

  lemma DivideAtLeast(s: real, n: real, lo: real)
    requires n > 0.0 && n * lo <= s
    ensures lo <= s / n
  {
  }

  /** Non-decreasing order. */
  predicate Sorted(s: seq<real>) {
    forall i, j :: 0 <= i < j < |s| ==> s[i] <= s[j]
  }

  /** `x` put into the sorted `s` before the first element greater than it. */
  function Insert(x: real, s: seq<real>): (r: seq<real>)
    requires Sorted(s)
    ensures Sorted(r)
    ensures multiset(r) == multiset(s) + multiset{x}
  {
    if s == [] || x <= s[0] then
      SortedCons(x, s);
      [x] + s
    else
      SortedTail(s);
      var t := Insert(x, s[1..]);
      InsertStep(s, x, t);
      [s[0]] + t
  }

  lemma SortedTail(s: seq<real>)
    requires Sorted(s) && s != []
    ensures Sorted(s[1..])
  {
  }

  lemma SortedCons(x: real, s: seq<real>)
    requires Sorted(s) && (s == [] || x <= s[0])
    ensures Sorted([x] + s)
  {
  }

  /** Putting `s[0]` in front of `t`, the tail of `s` with `x` inserted, keeps the
      order and holds the elements of `s` and `x`. */
  lemma InsertStep(s: seq<real>, x: real, t: seq<real>)
    requires Sorted(s) && s != [] && s[0] < x
    requires Sorted(t) && multiset(t) == multiset(s[1..]) + multiset{x}
    ensures Sorted([s[0]] + t)
    ensures multiset([s[0]] + t) == multiset(s) + multiset{x}
  {
    InsertedAbove(s[0], x, s[1..], t);
    assert s == [s[0]] + s[1..];
  }

  /** Every element of `t`, which holds the elements of `rest` and `x`, is at least
      `first` when `rest` and `x` are. */
  lemma InsertedAbove(first: real, x: real, rest: seq<real>, t: seq<real>)
    requires first <= x
    requires forall k :: 0 <= k < |rest| ==> first <= rest[k]
    requires multiset(t) == multiset(rest) + multiset{x}
    ensures forall k :: 0 <= k < |t| ==> first <= t[k]
  {
    forall k | 0 <= k < |t|
      ensures first <= t[k]
    {
      assert t[k] in multiset(t);
      if t[k] != x {
        assert t[k] in multiset(rest);
      }
    }
  }

  /** `sorted(xs)`: the samples in non-decreasing order. */
  function SortAsc(xs: seq<real>): (r: seq<real>)
    ensures Sorted(r)
    ensures multiset(r) == multiset(xs)
  {
    if xs == [] then []
    else
      assert xs == [xs[0]] + xs[1..];
      Insert(xs[0], SortAsc(xs[1..]))
  }

  /** Two sorted sequences holding the same samples are the same sequence, so the
      sorted order of a sample list does not depend on the order it was collected in. */
  lemma {:induction false} SortedUnique(a: seq<real>, b: seq<real>)
    requires Sorted(a) && Sorted(b)
    requires multiset(a) == multiset(b)
    ensures a == b
  {
    SameLength(a, b);
    if a != [] {
      SmallestFirst(a, b);
      TailsPermuted(a, b);
      SortedUnique(a[1..], b[1..]);
      assert a == [a[0]] + a[1..];
      assert b == [b[0]] + b[1..];
    }
  }

  lemma SameLength(a: seq<real>, b: seq<real>)
    requires multiset(a) == multiset(b)
    ensures |a| == |b|
  {
    assert |multiset(a)| == |a| && |multiset(b)| == |b|;
  }

  /** Two sorted sequences with the same elements start with the same one. */
  lemma SmallestFirst(a: seq<real>, b: seq<real>)
    requires Sorted(a) && Sorted(b)
    requires multiset(a) == multiset(b) && a != [] && b != []
    ensures a[0] == b[0]
  {
    assert a[0] in multiset(b);
    assert b[0] in multiset(a);
    var i :| 0 <= i < |b| && b[i] == a[0];
    var j :| 0 <= j < |a| && a[j] == b[0];
    assert b[0] <= b[i];
    assert a[0] <= a[j];
  }

  /** Removing the same first element leaves the same elements. */
  lemma TailsPermuted(a: seq<real>, b: seq<real>)
    requires multiset(a) == multiset(b) && a != [] && b != [] && a[0] == b[0]
    ensures multiset(a[1..]) == multiset(b[1..])
  {
    assert a == [a[0]] + a[1..];
    assert b == [b[0]] + b[1..];
    assert multiset(a) == multiset{a[0]} + multiset(a[1..]);
    assert multiset(b) == multiset{b[0]} + multiset(b[1..]);
    assert multiset(a[1..]) == multiset(a) - multiset{a[0]};
    assert multiset(b[1..]) == multiset(b) - multiset{b[0]};
  }

  /** `statistics.median`: the middle sample in sorted order, or the mean of the two
      middle samples when there is an even number of them. */
  function Median(xs: seq<real>): real
    requires xs != []
  {
    var s := SortAsc(xs);
    SameLength(s, xs);
    Middle(s)
  }

  /** The middle element, or the mean of the two middle elements. */
  function Middle(s: seq<real>): real
    requires s != []
  {
    var n := |s|;
    if n % 2 == 1 then s[n / 2] else (s[n / 2 - 1] + s[n / 2]) / 2.0
  }

  /** The median does not depend on the order the samples arrived in. */
  lemma MedianOfPermutation(xs: seq<real>, ys: seq<real>)
    requires xs != [] && multiset(xs) == multiset(ys)
    ensures ys != [] && Median(xs) == Median(ys)
  {
    SameLength(xs, ys);
    var sx, sy := SortAsc(xs), SortAsc(ys);
    SortedUnique(sx, sy);
  }

  /** The median lies between the smallest and the largest sample. */
  lemma MedianBounds(xs: seq<real>)
    requires xs != []
    ensures Min(xs) <= Median(xs) <= Max(xs)
  {
    var s := SortAsc(xs);
    SameLength(s, xs);
    var lo, hi := Min(xs), Max(xs);
    forall k | 0 <= k < |s|
      ensures lo <= s[k] <= hi
    {
      assert s[k] in multiset(xs);
      ElementBounds(xs, s[k]);
    }
    MiddleBounds(s, lo, hi);
  }

  /** A sample is between the smallest and the largest. */
  lemma ElementBounds(xs: seq<real>, y: real)
    requires y in multiset(xs)
    ensures Min(xs) <= y <= Max(xs)
  {
    var i :| 0 <= i < |xs| && xs[i] == y;
  }

  /** The middle element, or the mean of the two middle elements, of a sequence
      bounded by `lo` and `hi` is bounded by them too. */
  lemma MiddleBounds(s: seq<real>, lo: real, hi: real)
    requires s != []
    requires forall k :: 0 <= k < |s| ==> lo <= s[k] <= hi
    ensures lo <= Middle(s) <= hi
  {
  }

  /** The median of a single sample is that sample; of two, their mean. */
  lemma MedianSmall(xs: seq<real>)
    requires 1 <= |xs| <= 2
    ensures |xs| == 1 ==> Median(xs) == xs[0]
    ensures |xs| == 2 ==> Median(xs) == (xs[0] + xs[1]) / 2.0
  {
    var s := SortAsc(xs);
    SameLength(s, xs);
    if |xs| == 2 {
      SortTwo(xs, s);
    } else {
      assert s[0] in multiset(xs);
    }
  }

  /** A sorted arrangement of two samples puts the smaller first. */
  lemma SortTwo(xs: seq<real>, s: seq<real>)
    requires |xs| == 2 && Sorted(s) && multiset(s) == multiset(xs)
    ensures s == if xs[0] <= xs[1] then xs else [xs[1], xs[0]]
  {
    if xs[0] <= xs[1] {
      SortedUnique(s, xs);
    } else {
      var t := [xs[1], xs[0]];
      assert xs == [xs[0]] + [xs[1]] && t == [xs[1]] + [xs[0]];
      assert multiset(t) == multiset(xs);
      SortedUnique(s, t);
    }
  }
}

=== FILE: report.dfy ===
/** Choosing and ordering the report's rows (`generate_report` in
    src/log_analyzer/log_analyzer.py, up to the template): the URL rows are sorted by
    their time sum, largest first, keeping the input order among equal sums as
    Python's stable `sorted(..., reverse=True)` does; the first `report_size` of
    them are kept, with Python's slice semantics; and each becomes a table row that
    carries its URL. */
module Report {
  import opened Statistics

  /** One entry of `stats.items()`. */
  type Row = (string, UrlReport)

  /** The sort key: `time_sum`. */
  function Key(x: Row): real {
    x.1.timeSum
  }

  /** Non-increasing by time sum. */
  predicate SortedDesc(s: seq<Row>) {
    forall i, j :: 0 <= i < j < |s| ==> Key(s[i]) >= Key(s[j])
  }

  /** The rows of `s` whose time sum is `t`, in their order in `s`. */
  function WithKey(s: seq<Row>, t: real): (r: seq<Row>)
    ensures |r| <= |s|
  {
    if s == [] then []
    else (if Key(s[0]) == t then [s[0]] else []) + WithKey(s[1..], t)
  }

  lemma {:induction false} WithKeyAppend(a: seq<Row>, b: seq<Row>, t: real)
    ensures WithKey(a + b, t) == WithKey(a, t) + WithKey(b, t)
  {
    if a == [] {
      assert a + b == b;
    } else {
      var ab := a + b;
      var head := if Key(a[0]) == t then [a[0]] else [];
      assert ab[0] == a[0] && ab[1..] == a[1..] + b;
      assert WithKey(ab, t) == head + WithKey(a[1..] + b, t);
      WithKeyAppend(a[1..], b, t);
      assert WithKey(a, t) == head + WithKey(a[1..], t);
    }
  }

  /** `x` placed into the non-increasing `s` after every row whose time sum is at
      least its own. This is a second insertion sort beside `RealSeq.Insert`: that
      one orders bare samples upwards for the median, this one orders rows downwards
      by a key and must keep equal keys in input order, which SortStable relies on. */
  function Insert(x: Row, s: seq<Row>): (r: seq<Row>)
    requires SortedDesc(s)
    ensures SortedDesc(r)
    ensures multiset(r) == multiset(s) + multiset{x}
  {
    if s == [] || Key(s[0]) < Key(x) then
      SortedCons(x, s);
      [x] + s
    else
      SortedTail(s);
      var t := Insert(x, s[1..]);
      InsertStep(s, x, t);
      [s[0]] + t
  }

  lemma SortedTail(s: seq<Row>)
    requires SortedDesc(s) && s != []
    ensures SortedDesc(s[1..])
  {
  }

  lemma SortedCons(x: Row, s: seq<Row>)
    requires SortedDesc(s) && (s == [] || Key(s[0]) < Key(x))
    ensures SortedDesc([x] + s)
  {
  }

  /** Putting `s[0]` in front of `t`, the tail of `s` with `x` inserted, keeps the
      order and holds the rows of `s` and `x`. */
  lemma InsertStep(s: seq<Row>, x: Row, t: seq<Row>)
    requires SortedDesc(s) && s != [] && Key(x) <= Key(s[0])
    requires SortedDesc(t) && multiset(t) == multiset(s[1..]) + multiset{x}
    ensures SortedDesc([s[0]] + t)
    ensures multiset([s[0]] + t) == multiset(s) + multiset{x}
  {
    InsertedBelow(s[0], x, s[1..], t);
    assert s == [s[0]] + s[1..];
  }

  /** Every row of `t`, which holds the rows of `rest` and `x`, has a time sum of at
      most `first`'s when `rest` and `x` do. */
  lemma InsertedBelow(first: Row, x: Row, rest: seq<Row>, t: seq<Row>)
    requires Key(x) <= Key(first)
    requires forall k :: 0 <= k < |rest| ==> Key(rest[k]) <= Key(first)
    requires multiset(t) == multiset(rest) + multiset{x}
    ensures forall k :: 0 <= k < |t| ==> Key(t[k]) <= Key(first)
  {
    forall k | 0 <= k < |t|
      ensures Key(t[k]) <= Key(first)
    {
      assert t[k] in multiset(t);
      if t[k] != x {
        assert t[k] in multiset(rest);
      }
    }
  }

  /** In a non-increasing sequence whose first time sum is below `t`, no row has
      time sum `t`. */
  lemma {:induction false} WithKeyBelow(s: seq<Row>, t: real)
    requires SortedDesc(s)
    requires s != [] ==> Key(s[0]) < t
    ensures WithKey(s, t) == []
  {
    if s != [] {
      WithKeyBelow(s[1..], t);
    }
  }

  /** Inserting `x` puts it after every row with the same time sum. */
  lemma {:induction false} InsertStable(x: Row, s: seq<Row>, t: real)
    requires SortedDesc(s)
    ensures WithKey(Insert(x, s), t) == WithKey(s, t) + WithKey([x], t)
  {
    if s == [] || Key(s[0]) < Key(x) {
      InsertStableFront(x, s, t);
    } else {
      var tail := s[1..];
      SortedTail(s);
      InsertPast(x, s);
      InsertStable(x, tail, t);
      ConsStable(s[0], Insert(x, tail), tail, x, t);
      assert [s[0]] + tail == s;
    }
  }

  /** Putting the same row in front of two sequences keeps the relation between their
      rows of time sum `t`. */
  lemma ConsStable(h: Row, u: seq<Row>, tail: seq<Row>, x: Row, t: real)
    requires WithKey(u, t) == WithKey(tail, t) + WithKey([x], t)
    ensures WithKey([h] + u, t) == WithKey([h] + tail, t) + WithKey([x], t)
  {
    var a, b, c := WithKey([h], t), WithKey(tail, t), WithKey([x], t);
    WithKeyCons(h, u, t);
    WithKeyCons(h, tail, t);
    Associate(a, b, c);
  }

  lemma Associate(a: seq<Row>, b: seq<Row>, c: seq<Row>)
    ensures a + (b + c) == (a + b) + c
  {
  }

  /** A row with a larger time sum than every row of `s` goes first, and that does
      not change the order of any time sum's rows. */
  lemma InsertStableFront(x: Row, s: seq<Row>, t: real)
    requires SortedDesc(s)
    requires s == [] || Key(s[0]) < Key(x)
    ensures WithKey(Insert(x, s), t) == WithKey(s, t) + WithKey([x], t)
  {
    if s == [] {
      InsertAtEnd(x, s);
      assert [x] == [x] + s;
    } else {
      InsertFront(x, s);
    }
    WithKeyAppend([x], s, t);
    if Key(x) == t {
      WithKeyBelow(s, t);
    } else {
      WithKeyOther(x, t);
    }
  }

  lemma WithKeyCons(x: Row, s: seq<Row>, t: real)
    ensures WithKey([x] + s, t) == WithKey([x], t) + WithKey(s, t)
  {
    WithKeyAppend([x], s, t);
  }

  /** A single row whose time sum is not `t` contributes nothing to `t`. */
  lemma WithKeyOther(x: Row, t: real)
    requires Key(x) != t
    ensures WithKey([x], t) == []
  {
    assert [x][1..] == [];
  }

  /** `sorted(stats.items(), key=time_sum, reverse=True)`: each row in turn is
      placed after the rows already placed whose time sum is at least its own. */
  function SortDesc(xs: seq<Row>): (r: seq<Row>)
    ensures |r| == |xs|
    ensures SortedDesc(r)
    ensures multiset(r) == multiset(xs)
  {
    if xs == [] then []
    else
      var init := xs[..|xs| - 1];
      var x := xs[|xs| - 1];
      assert xs == init + [x];
      var r := Insert(x, SortDesc(init));
      assert |r| == |xs| by {
        assert |multiset(r)| == |r|;
      }
      r
  }

  /** Sorting keeps, for every time sum, the input order of the rows that have it. */
  lemma {:induction false} SortStable(items: seq<Row>, t: real)
    ensures WithKey(SortDesc(items), t) == WithKey(items, t)
  {
    if items != [] {
      var init := items[..|items| - 1];
      var x := items[|items| - 1];
      assert items == init + [x];
      SortStable(init, t);
      InsertStable(x, SortDesc(init), t);
      WithKeyAppend(init, [x], t);
    }
  }

  /** How many rows `[:n]` keeps of `len`: a negative `n` counts from the end. */
  function SliceEnd(len: nat, n: int): (k: nat)
    ensures k <= len
  {
    if n >= 0 then (if n <= len then n else len)
    else if len + n >= 0 then len + n else 0
  }

  /** The rows of the report, before the URL is attached. */
  function TopRows(items: seq<Row>, reportSize: int): (top: seq<Row>)
    ensures |top| == SliceEnd(|items|, reportSize)
  {
    var sorted := SortDesc(items);
    assert |sorted| == |items| by {
      assert |multiset(sorted)| == |sorted| && |multiset(items)| == |items|;
    }
    sorted[..SliceEnd(|items|, reportSize)]
  }

  /** One line of the report's table: the URL and its values. */
  datatype TableRow = TableRow(url: string, stats: UrlReport)

  /** `table_data`: the chosen rows, each with its URL attached. */
  function ReportTable(items: seq<Row>, reportSize: int): (table: seq<TableRow>)
    ensures |table| == SliceEnd(|items|, reportSize)
    ensures forall i :: 0 <= i < |table| ==> (table[i].url, table[i].stats) == TopRows(items, reportSize)[i]
  {
    var top := TopRows(items, reportSize);
    seq(|top|, i requires 0 <= i < |top| => TableRow(top[i].0, top[i].1))
  }

  /** A report size that is not negative keeps that many rows, or all of them when
      there are fewer. */
  lemma ReportLength(items: seq<Row>, reportSize: nat)
    ensures |ReportTable(items, reportSize)| == if reportSize <= |items| then reportSize else |items|
  {
  }

  /** The chosen rows are in non-increasing order of time sum. */
  lemma {:induction false} TopRowsSorted(items: seq<Row>, reportSize: int)
    ensures SortedDesc(TopRows(items, reportSize))
  {
    var sorted := SortDesc(items);
    var top := TopRows(items, reportSize);
    assert top == sorted[..|top|];
    forall i, j | 0 <= i < j < |top|
      ensures Key(top[i]) >= Key(top[j])
    {
      assert top[i] == sorted[i] && top[j] == sorted[j];
    }
  }

  /** Every chosen row is a row of the input, taken at most as often as it occurs,
      and every row left out has a time sum no larger than any chosen row's. */
  lemma {:induction false} TopRowsDominate(items: seq<Row>, reportSize: int)
    ensures multiset(TopRows(items, reportSize)) <= multiset(items)
    ensures forall x, i ::
      (x in multiset(items) - multiset(TopRows(items, reportSize)) && 0 <= i < |TopRows(items, reportSize)|)
      ==> Key(x) <= Key(TopRows(items, reportSize)[i])
  {
    var sorted := SortDesc(items);
    var top := TopRows(items, reportSize);
    var rest := sorted[|top|..];
    assert sorted == top + rest;
    SplitMultiset(items, top, rest);
    PrefixDominates(top, rest);
  }

  /** A sequence split into two parts holds the elements of both. */
  lemma SplitMultiset(items: seq<Row>, top: seq<Row>, rest: seq<Row>)
    requires multiset(top + rest) == multiset(items)
    ensures multiset(top) <= multiset(items)
    ensures multiset(items) - multiset(top) == multiset(rest)
  {
    assert multiset(top + rest) == multiset(top) + multiset(rest);
  }

  /** In a non-increasing sequence, every row of a prefix has a time sum at least that
      of every row after it. */
  lemma PrefixDominates(top: seq<Row>, rest: seq<Row>)
    requires SortedDesc(top + rest)
    ensures forall x, i :: x in multiset(rest) && 0 <= i < |top| ==> Key(x) <= Key(top[i])
  {
    var sorted := top + rest;
    forall x, i | x in multiset(rest) && 0 <= i < |top|
      ensures Key(x) <= Key(top[i])
    {
      var j :| 0 <= j < |rest| && rest[j] == x;
      assert sorted[|top| + j] == x && sorted[i] == top[i];
    }
  }

  /** Among rows with equal time sums the chosen ones come first in input order:
      the chosen rows with time sum `t` are the first of the input's rows with time
      sum `t`, in the same order. */
  lemma {:induction false} TopRowsStable(items: seq<Row>, reportSize: int, t: real)
    ensures var chosen := WithKey(TopRows(items, reportSize), t);
      |chosen| <= |WithKey(items, t)| && chosen == WithKey(items, t)[..|chosen|]
  {
    var sorted := SortDesc(items);
    var top := TopRows(items, reportSize);
    var rest := sorted[|top|..];
    assert sorted == top + rest;
    WithKeyAppend(top, rest, t);
    SortStable(items, t);
    assert WithKey(items, t) == WithKey(top, t) + WithKey(rest, t);
  }

  /** Rows with equal time sums keep their input order: of a row with time sum 1,
      one with 2 and another with 1, the top two are the second and then the first. */
  lemma {:induction false} TopRowsSample(a: Row, b: Row, c: Row)
    requires Key(a) == 1.0 && Key(b) == 2.0 && Key(c) == 1.0
    ensures TopRows([a, b, c], 2) == [b, a]
  {
    SortSample(a, b, c);
    TopRowsOf([a, b, c], 2, [b, a, c]);
    FirstTwo(b, a, c);
  }

  lemma FirstTwo(x: Row, y: Row, z: Row)
    ensures [x, y, z][..2] == [x, y]
  {
  }

  /** A report size within the number of rows keeps that many of the sorted rows. */
  lemma TopRowsOf(items: seq<Row>, reportSize: int, sorted: seq<Row>)
    requires SortDesc(items) == sorted && 0 <= reportSize <= |items|
    ensures TopRows(items, reportSize) == sorted[..reportSize]
  {
  }

  lemma SortSample(a: Row, b: Row, c: Row)
    requires Key(a) == 1.0 && Key(b) == 2.0 && Key(c) == 1.0
    ensures SortDesc([a, b, c]) == [b, a, c]
  {
    SortPairSample(a, b);
    SortDescSnoc([a, b], c);
    assert [a, b] + [c] == [a, b, c];
    InsertSample(a, b, c);
  }

  lemma SortPairSample(a: Row, b: Row)
    requires Key(a) < Key(b)
    ensures SortDesc([a, b]) == [b, a]
  {
    SortSingle(a);
    SortDescSnoc([a], b);
    assert [a] + [b] == [a, b];
    InsertFront(b, [a]);
  }

  lemma SortSingle(a: Row)
    ensures SortDesc([a]) == [a]
  {
    SortDescSnoc([], a);
    assert [] + [a] == [a];
    InsertAtEnd(a, []);
  }

  lemma InsertFront(x: Row, s: seq<Row>)
    requires SortedDesc(s) && s != [] && Key(s[0]) < Key(x)
    ensures Insert(x, s) == [x] + s
  {
  }

  lemma SortDescSnoc(init: seq<Row>, x: Row)
    ensures SortDesc(init + [x]) == Insert(x, SortDesc(init))
  {
    assert (init + [x])[..|init|] == init;
  }

  lemma InsertSample(a: Row, b: Row, c: Row)
    requires Key(a) == 1.0 && Key(b) == 2.0 && Key(c) == 1.0
    ensures Insert(c, [b, a]) == [b, a, c]
  {
    InsertAfter(c, a);
    PairSorted(b, a);
    InsertPast(c, [b, a]);
    PairAlgebra(b, a, c);
  }

  lemma PairSorted(b: Row, a: Row)
    requires Key(a) <= Key(b)
    ensures SortedDesc([b, a])
  {
  }

  lemma PairAlgebra(b: Row, a: Row, c: Row)
    ensures [b, a][1..] == [a] && [b] + [a, c] == [b, a, c]
  {
  }

  /** A row whose time sum is no larger than that of the single row `a` goes after it. */
  lemma InsertAfter(x: Row, a: Row)
    requires Key(x) <= Key(a)
    ensures Insert(x, [a]) == [a, x]
  {
    InsertAtEnd(x, []);
    InsertPast(x, [a]);
    assert [a][1..] == [];
    assert [a] + [x] == [a, x];
  }

  lemma InsertAtEnd(x: Row, s: seq<Row>)
    requires s == []
    ensures Insert(x, s) == [x]
  {
  }

  lemma InsertPast(x: Row, s: seq<Row>)
    requires SortedDesc(s) && s != [] && Key(x) <= Key(s[0])
    ensures Insert(x, s) == [s[0]] + Insert(x, s[1..])
  {
  }
}

=== FILE: statistics.dfy ===
/** Per-URL aggregation (`calculate_statistics` in src/log_analyzer/log_analyzer.py):
    one pass collects, for every URL, how often it occurs, the total of its request
    times and the list of them; a second pass turns each of those into the report
    values. Values are exact reals and nothing is rounded. */
module Statistics {
  import opened LineParser
  import opened RealSeq

  /** The URL of every entry, in order. */
  function Urls(es: seq<Entry>): (r: seq<string>)
    ensures |r| == |es|
    ensures forall i :: 0 <= i < |es| ==> r[i] == es[i].url
  {
    seq(|es|, i requires 0 <= i < |es| => es[i].url)
  }

  /** The request time of every entry, in order. */
  function Times(es: seq<Entry>): (r: seq<real>)
    ensures |r| == |es|
    ensures forall i :: 0 <= i < |es| ==> r[i] == es[i].requestTime
  {
    seq(|es|, i requires 0 <= i < |es| => es[i].requestTime)
  }

  /** The request times of the entries for `url`, in the order they occur: the
      `time_list` the first pass builds for it. */
  function Samples(es: seq<Entry>, url: string): (r: seq<real>)
    ensures |r| == multiset(Urls(es))[url]
  {
    if es == [] then []
    else
      var init := es[..|es| - 1];
      var e := es[|es| - 1];
      assert Urls(es) == Urls(init) + [e.url];
      Samples(init, url) + (if e.url == url then [e.requestTime] else [])
  }

  /** The running record the first pass keeps per URL. */
  datatype UrlStats = UrlStats(count: nat, timeSum: real, timeList: seq<real>)

  /** What the first pass holds for a URL once every entry has been seen. */
  function Collected(es: seq<Entry>, url: string): UrlStats {
    var xs := Samples(es, url);
    UrlStats(|xs|, Sum(xs), xs)
  }

  /** `m` has a key for exactly the URLs of `es`, each holding what was collected
      for it. */
  ghost predicate Summarises(m: map<string, UrlStats>, es: seq<Entry>) {
    && (forall u :: u in m <==> u in Urls(es))
    && (forall u :: u in m ==> m[u] == Collected(es, u))
  }

  /** The record of one URL after one more of its entries. */
  function Bump(prev: UrlStats, time: real): UrlStats {
    UrlStats(prev.count + 1, prev.timeSum + time, prev.timeList + [time])
  }

  /** One more entry. */
  function Record(m: map<string, UrlStats>, e: Entry): map<string, UrlStats> {
    var prev := if e.url in m then m[e.url] else UrlStats(0, 0.0, []);
    m[e.url := Bump(prev, e.requestTime)]
  }

  lemma SamplesSnoc(init: seq<Entry>, e: Entry, url: string)
    ensures Samples(init + [e], url) == Samples(init, url) + (if e.url == url then [e.requestTime] else [])
  {
    assert (init + [e])[..|init|] == init;
  }

  lemma SumSnoc(xs: seq<real>, x: real)
    ensures Sum(xs + [x]) == Sum(xs) + x
  {
    assert (xs + [x])[..|xs|] == xs;
  }

  /** Recording one more entry keeps the map a summary of the entries seen so far. */
  lemma {:induction false} RecordStep(m: map<string, UrlStats>, init: seq<Entry>, e: Entry)
    requires Summarises(m, init)
    ensures Summarises(Record(m, e), init + [e])
  {
    var es := init + [e];
    var m' := Record(m, e);
    UrlsSnoc(init, e);
    forall u | u in m'
      ensures m'[u] == Collected(es, u)
    {
      if u == e.url {
        RecordSame(m, init, e);
      } else {
        RecordOther(m, init, e, u);
      }
    }
  }

  lemma UrlsSnoc(init: seq<Entry>, e: Entry)
    ensures Urls(init + [e]) == Urls(init) + [e.url]
  {
  }

  /** The entry's own URL gets one more sample. */
  lemma RecordSame(m: map<string, UrlStats>, init: seq<Entry>, e: Entry)
    requires Summarises(m, init)
    ensures Record(m, e)[e.url] == Collected(init + [e], e.url)
  {
    var u := e.url;
    var xs := Samples(init, u);
    SamplesSnoc(init, e, u);
    SumSnoc(xs, e.requestTime);
    if u !in m {
      assert u !in Urls(init);
      assert multiset(Urls(init))[u] == 0;
      assert xs == [];
    }
  }

  /** Every other URL keeps its record. */
  lemma RecordOther(m: map<string, UrlStats>, init: seq<Entry>, e: Entry, u: string)
    requires Summarises(m, init) && u != e.url && u in Record(m, e)
    ensures Record(m, e)[u] == Collected(init + [e], u)
  {
    SamplesSnoc(init, e, u);
    assert Samples(init, u) + [] == Samples(init, u);
  }

  /** The first pass (the `defaultdict` loop): a key for every URL that occurs,
      holding its number of occurrences, the total and the list of its times. */
  function Accumulate(es: seq<Entry>): (m: map<string, UrlStats>)
    ensures Summarises(m, es)
  {
    if es == [] then map[]
    else
      var init := es[..|es| - 1];
      var e := es[|es| - 1];
      var m := Accumulate(init);
      assert es == init + [e];
      RecordStep(m, init, e);
      Record(m, e)
  }

  /** The URLs in the order they first occur, each once: the iteration order of the
      dictionary the first pass fills. */
  function FirstSeen(es: seq<Entry>): (r: seq<string>)
    ensures forall i, j :: 0 <= i < j < |r| ==> r[i] != r[j]
    ensures forall u :: u in r <==> u in Urls(es)
  {
    if es == [] then []
    else
      var init := es[..|es| - 1];
      var e := es[|es| - 1];
      var r := FirstSeen(init);
      assert Urls(es) == Urls(init) + [e.url];
      if e.url in r then r else r + [e.url]
  }

  /** The position of the first occurrence of `u` in `us`. */
  function FirstIndex(us: seq<string>, u: string): (k: nat)
    requires u in us
    ensures k < |us| && us[k] == u
    ensures forall j :: 0 <= j < k ==> us[j] != u
  {
    if us[0] == u then 0
    else
      assert u in us[1..] by {
        var k :| 0 <= k < |us| && us[k] == u;
        assert us[1..][k - 1] == u;
      }
      1 + FirstIndex(us[1..], u)
  }

  /** A position holding `u` with no `u` before it is the first occurrence. */
  lemma FirstIndexIs(us: seq<string>, u: string, k: nat)
    requires k < |us| && us[k] == u
    requires forall j :: 0 <= j < k ==> us[j] != u
    ensures FirstIndex(us, u) == k
  {
    var f := FirstIndex(us, u);
  }

  /** Appending a URL does not move the first occurrence of one already present, and
      the first occurrence of a new one is the appended position. */
  lemma FirstIndexSnoc(us: seq<string>, x: string, u: string)
    requires u in us + [x]
    ensures u in us ==> FirstIndex(us + [x], u) == FirstIndex(us, u)
    ensures u !in us ==> FirstIndex(us + [x], u) == |us|
  {
    if u in us {
      var k := FirstIndex(us, u);
      FirstIndexIs(us + [x], u, k);
    } else {
      assert (us + [x])[|us|] == x;
      assert forall j :: 0 <= j < |us| ==> (us + [x])[j] == us[j];
      FirstIndexIs(us + [x], u, |us|);
    }
  }

  /** The dictionary order: a URL comes before another exactly when its first
      occurrence in the entries is earlier. */
  lemma {:induction false} FirstSeenOrder(es: seq<Entry>)
    ensures forall i, j :: 0 <= i < j < |FirstSeen(es)| ==>
      FirstIndex(Urls(es), FirstSeen(es)[i]) < FirstIndex(Urls(es), FirstSeen(es)[j])
  {
    if es != [] {
      var init := es[..|es| - 1];
      var e := es[|es| - 1];
      var r := FirstSeen(init);
      assert es == init + [e];
      UrlsSnoc(init, e);
      FirstSeenOrder(init);
      forall i, j | 0 <= i < j < |FirstSeen(es)|
        ensures FirstIndex(Urls(es), FirstSeen(es)[i]) < FirstIndex(Urls(es), FirstSeen(es)[j])
      {
        OrderStep(init, e, r, FirstSeen(es), i, j);
      }
    }
  }

  /** One step of FirstSeenOrder: the order of the URLs seen before the last entry is
      kept, and a URL the last entry adds comes after all of them. */
  lemma OrderStep(init: seq<Entry>, e: Entry, r: seq<string>, r': seq<string>, i: nat, j: nat)
    requires r == FirstSeen(init)
    requires r' == if e.url in r then r else r + [e.url]
    requires forall i, j :: 0 <= i < j < |r| ==>
      FirstIndex(Urls(init), r[i]) < FirstIndex(Urls(init), r[j])
    requires i < j < |r'|
    requires Urls(init + [e]) == Urls(init) + [e.url]
    ensures r'[i] in Urls(init + [e]) && r'[j] in Urls(init + [e])
    ensures FirstIndex(Urls(init + [e]), r'[i]) < FirstIndex(Urls(init + [e]), r'[j])
  {
    var us := Urls(init);
    assert r'[i] == r[i] && r[i] in us;
    FirstIndexSnoc(us, e.url, r'[i]);
    FirstIndexSnoc(us, e.url, r'[j]);
    if j < |r| {
      assert r'[j] == r[j] && r[j] in us;
    } else {
      assert r'[j] == e.url && e.url !in us;
    }
  }

  /** `part / whole * 100`, the share in per cent, behind the source's guard: zero
      when the whole is not positive. */
  function Percent(part: real, whole: real): real {
    if whole > 0.0 then part / whole * 100.0 else 0.0
  }

  /** The values reported for one URL. */
  datatype UrlReport = UrlReport(count: nat, countPerc: real, timeSum: real, timePerc: real,
                                 timeAvg: real, timeMax: real, timeMed: real)

  /** The second pass for one URL, given the number of entries and the total time. */
  function Finalize(s: UrlStats, totalCount: nat, totalTime: real): UrlReport {
    UrlReport(
      s.count,
      Percent(s.count as real, totalCount as real),
      s.timeSum,
      Percent(s.timeSum, totalTime),
      if s.count > 0 then s.timeSum / s.count as real else 0.0,
      if s.timeList != [] then Max(s.timeList) else 0.0,
      if s.timeList != [] then Median(s.timeList) else 0.0)
  }

  /** `calculate_statistics`: one row per URL, in first-occurrence order. */
  function CalculateStatistics(es: seq<Entry>): (rows: seq<(string, UrlReport)>)
    ensures |rows| == |FirstSeen(es)|
    ensures forall i :: 0 <= i < |rows| ==> rows[i].0 == FirstSeen(es)[i] && rows[i].0 in Urls(es)
    ensures forall i, j :: 0 <= i < j < |rows| ==>
      FirstIndex(Urls(es), rows[i].0) < FirstIndex(Urls(es), rows[j].0)
  {
    FirstSeenOrder(es);
    var acc := Accumulate(es);
    var keys := FirstSeen(es);
    var total := Sum(Times(es));
    seq(|keys|, i requires 0 <= i < |keys| => (keys[i], Finalize(acc[keys[i]], |es|, total)))
  }

  /** The row of every URL that occurs: its count is its number of occurrences, its
      time sum the total of its request times, its mean, maximum and median are those
      of its request times, and its two shares are its count over the number of
      entries and its time sum over the total time, in per cent (zero when the total
      time is zero). */
  lemma {:induction false} RowOf(es: seq<Entry>, i: nat)
    requires i < |CalculateStatistics(es)|
    ensures var (url, r) := CalculateStatistics(es)[i];
      var xs := Samples(es, url);
      && xs != []
      && r.count == multiset(Urls(es))[url] == |xs|
      && r.timeSum == Sum(xs)
      && r.timeAvg == Mean(xs)
      && r.timeMax == Max(xs)
      && r.timeMed == Median(xs)
      && r.countPerc == |xs| as real / |es| as real * 100.0
      && r.timePerc == Percent(Sum(xs), Sum(Times(es)))
  {
    var url := FirstSeen(es)[i];
    var xs := Samples(es, url);
    assert url in Urls(es) by {
      assert url in FirstSeen(es);
    }
    assert xs != [] by {
      assert multiset(Urls(es))[url] > 0;
    }
    var acc := Accumulate(es);
    assert acc[url] == UrlStats(|xs|, Sum(xs), xs);
    assert CalculateStatistics(es)[i].1 == Finalize(UrlStats(|xs|, Sum(xs), xs), |es|, Sum(Times(es)));
    assert |es| > 0 by {
      assert |Urls(es)| == |es|;
    }
    FinalizeValues(xs, |es|, Sum(Times(es)));
  }

  /** The second pass on what was collected for one URL with samples `xs`. */
  lemma FinalizeValues(xs: seq<real>, n: nat, total: real)
    requires xs != [] && n > 0
    ensures var r := Finalize(UrlStats(|xs|, Sum(xs), xs), n, total);
      && r.count == |xs|
      && r.timeSum == Sum(xs)
      && r.timeAvg == Mean(xs)
      && r.timeMax == Max(xs)
      && r.timeMed == Median(xs)
      && r.countPerc == |xs| as real / n as real * 100.0
      && r.timePerc == Percent(Sum(xs), total)
  {
  }

  /** A row's count and time sum are those of its URL's samples. */
  lemma RowSums(es: seq<Entry>, i: nat)
    requires i < |CalculateStatistics(es)|
    ensures var (url, r) := CalculateStatistics(es)[i];
      r.count == |Samples(es, url)| && r.timeSum == Sum(Samples(es, url))
  {
    RowOf(es, i);
  }

  /** Every row's median lies between its smallest and largest time, and so does its
      mean; in particular neither exceeds the reported maximum. */
  lemma {:induction false} RowBounds(es: seq<Entry>, i: nat)
    requires i < |CalculateStatistics(es)|
    ensures var (url, r) := CalculateStatistics(es)[i];
      && Min(Samples(es, url)) <= r.timeMed <= r.timeMax
      && Min(Samples(es, url)) <= r.timeAvg <= r.timeMax
  {
    RowOf(es, i);
    var url := CalculateStatistics(es)[i].0;
    MedianBounds(Samples(es, url));
    MeanBounds(Samples(es, url));
  }

  /** The number of samples of the URLs `ks`, added up. */
  function CountOver(es: seq<Entry>, ks: seq<string>): nat {
    if ks == [] then 0 else CountOver(es, ks[..|ks| - 1]) + |Samples(es, ks[|ks| - 1])|
  }

  /** The time sums of the URLs `ks`, added up. */
  function TimeOver(es: seq<Entry>, ks: seq<string>): real {
    if ks == [] then 0.0 else TimeOver(es, ks[..|ks| - 1]) + Sum(Samples(es, ks[|ks| - 1]))
  }

  predicate Distinct(ks: seq<string>) {
    forall i, j :: 0 <= i < j < |ks| ==> ks[i] != ks[j]
  }

  /** One more entry adds one sample, and its time, to exactly the URL it belongs to. */
  lemma {:induction false} OverStep(init: seq<Entry>, e: Entry, ks: seq<string>)
    requires Distinct(ks)
    ensures CountOver(init + [e], ks) == CountOver(init, ks) + (if e.url in ks then 1 else 0)
    ensures TimeOver(init + [e], ks) == TimeOver(init, ks) + (if e.url in ks then e.requestTime else 0.0)
  {
    var es := init + [e];
    assert es[..|es| - 1] == init;
    if ks != [] {
      var k := ks[|ks| - 1];
      var front := ks[..|ks| - 1];
      assert ks == front + [k];
      OverStep(init, e, front);
      var xs := Samples(init, k);
      assert Sum(xs + [e.requestTime]) == Sum(xs) + e.requestTime by {
        assert (xs + [e.requestTime])[..|xs|] == xs;
      }
      assert xs + [] == xs;
      if e.url == k {
        assert e.url !in front;
      }
    }
  }

  /** Over any list of distinct URLs that contains every URL of the entries, the
      counts add up to the number of entries and the time sums to the total time. */
  lemma {:induction false} CoverTotals(es: seq<Entry>, ks: seq<string>)
    requires Distinct(ks)
    requires forall u :: u in Urls(es) ==> u in ks
    ensures CountOver(es, ks) == |es|
    ensures TimeOver(es, ks) == Sum(Times(es))
  {
    if es == [] {
      EmptyOver(ks);
    } else {
      var init := es[..|es| - 1];
      var e := es[|es| - 1];
      assert es == init + [e];
      assert Urls(es) == Urls(init) + [e.url];
      assert Times(es) == Times(init) + [e.requestTime];
      assert Times(es)[..|es| - 1] == Times(init);
      CoverTotals(init, ks);
      OverStep(init, e, ks);
    }
  }

  lemma {:induction false} EmptyOver(ks: seq<string>)
    ensures CountOver([], ks) == 0 && TimeOver([], ks) == 0.0
  {
    if ks != [] {
      EmptyOver(ks[..|ks| - 1]);
    }
  }

  /** The counts of all rows, added up. */
  function TotalCount(rows: seq<(string, UrlReport)>): nat {
    if rows == [] then 0 else TotalCount(rows[..|rows| - 1]) + rows[|rows| - 1].1.count
  }

  /** The time sums of all rows, added up. */
  function TotalTime(rows: seq<(string, UrlReport)>): real {
    if rows == [] then 0.0 else TotalTime(rows[..|rows| - 1]) + rows[|rows| - 1].1.timeSum
  }

  function Keys(rows: seq<(string, UrlReport)>): (ks: seq<string>)
    ensures |ks| == |rows| && forall i :: 0 <= i < |rows| ==> ks[i] == rows[i].0
  {
    seq(|rows|, i requires 0 <= i < |rows| => rows[i].0)
  }

  lemma {:induction false} RowTotals(es: seq<Entry>, rows: seq<(string, UrlReport)>)
    requires forall i :: 0 <= i < |rows| ==>
      rows[i].1.count == |Samples(es, rows[i].0)| && rows[i].1.timeSum == Sum(Samples(es, rows[i].0))
    ensures TotalCount(rows) == CountOver(es, Keys(rows))
    ensures TotalTime(rows) == TimeOver(es, Keys(rows))
  {
    if rows != [] {
      var front := rows[..|rows| - 1];
      assert Keys(rows)[..|rows| - 1] == Keys(front);
      RowTotals(es, front);
    }
  }

  /** Every entry is counted in exactly one row, and the rows' time sums add up to
      the total request time. */
  lemma {:induction false} StatisticsTotals(es: seq<Entry>)
    ensures TotalCount(CalculateStatistics(es)) == |es|
    ensures TotalTime(CalculateStatistics(es)) == Sum(Times(es))
  {
    var rows := CalculateStatistics(es);
    forall i | 0 <= i < |rows|
      ensures rows[i].1.count == |Samples(es, rows[i].0)| && rows[i].1.timeSum == Sum(Samples(es, rows[i].0))
    {
      RowSums(es, i);
    }
    RowTotals(es, rows);
    assert Keys(rows) == FirstSeen(es);
    CoverTotals(es, FirstSeen(es));
  }

  /** Every row's share of the entries is above zero and at most one hundred per
      cent. */
  lemma {:induction false} RowCountShare(es: seq<Entry>, i: nat)
    requires i < |CalculateStatistics(es)|
    ensures 0.0 < CalculateStatistics(es)[i].1.countPerc <= 100.0
  {
    RowOf(es, i);
    var url := CalculateStatistics(es)[i].0;
    var n := multiset(Urls(es))[url];
    assert n <= |es| by {
      assert n <= |multiset(Urls(es))|;
    }
    Percentage(n, |es|);
  }

  lemma Percentage(n: nat, d: nat)
    requires 0 < n <= d
    ensures 0.0 < n as real / d as real * 100.0 <= 100.0
  {
    assert n as real / d as real <= 1.0;
  }

  /** Every row's share of the total time is between zero and one hundred per cent,
      and it is zero exactly when the URL's own time sum is zero. That includes the
      case of a log whose every request time is zero, where the total is zero too and
      the `total_time > 0` guard gives every row a share of 0. */
  lemma {:induction false} RowTimeShare(es: seq<Entry>, i: nat)
    requires i < |CalculateStatistics(es)|
    requires forall k :: 0 <= k < |es| ==> 0.0 <= es[k].requestTime
    ensures var r := CalculateStatistics(es)[i].1;
      && 0.0 <= r.timePerc <= 100.0
      && (r.timePerc == 0.0 <==> r.timeSum == 0.0)
  {
    RowOf(es, i);
    var url := FirstSeen(es)[i];
    var xs := Samples(es, url);
    var total := Sum(Times(es));
    SamplesWithinTotal(es, url);
    assert CalculateStatistics(es)[i].1 == Finalize(Accumulate(es)[url], |es|, total);
    Share(Sum(xs), total);
  }

  lemma Share(part: real, total: real)
    requires 0.0 <= part <= total
    ensures 0.0 <= Percent(part, total) <= 100.0
    ensures Percent(part, total) == 0.0 <==> part == 0.0
  {
    if total > 0.0 {
      assert part / total <= 1.0;
    }
  }

  /** With no negative request time, a URL's time sum is between zero and the total
      time of all entries. */
  lemma {:induction false} SamplesWithinTotal(es: seq<Entry>, url: string)
    requires forall k :: 0 <= k < |es| ==> 0.0 <= es[k].requestTime
    ensures 0.0 <= Sum(Samples(es, url)) <= Sum(Times(es))
  {
    if es != [] {
      var init := es[..|es| - 1];
      var e := es[|es| - 1];
      assert es == init + [e];
      assert Times(es) == Times(init) + [e.requestTime];
      SamplesWithinTotal(init, url);
      SamplesSnoc(init, e, url);
      SumSnoc(Samples(init, url), e.requestTime);
      SumSnoc(Times(init), e.requestTime);
      assert Samples(init, url) + [] == Samples(init, url);
    }
  }

  /** The rows are keyed by exactly the URLs that occur, each once. */
  lemma {:induction false} StatisticsKeys(es: seq<Entry>)
    ensures Distinct(Keys(CalculateStatistics(es)))
    ensures forall u :: u in Keys(CalculateStatistics(es)) <==> u in Urls(es)
  {
    assert Keys(CalculateStatistics(es)) == FirstSeen(es);
  }

  /** The aggregation test: two entries for one URL and one for another give two
      rows; the first URL has count 2, time sum 0.3, mean and median 0.15 and
      maximum 0.2. */
  lemma {:induction false} StatisticsSample(u1: string, u2: string, es: seq<Entry>)
    requires u1 != u2
    requires es == [Entry(u1, 0.1), Entry(u1, 0.2), Entry(u2, 0.3)]
    ensures var rows := CalculateStatistics(es);
      && |rows| == 2 && rows[0].0 == u1 && rows[1].0 == u2
      && rows[0].1.count == 2 && rows[0].1.timeSum == 0.3 && rows[0].1.timeAvg == 0.15
      && rows[0].1.timeMax == 0.2 && rows[0].1.timeMed == 0.15
  {
    SampleKeys(u1, u2, es);
    SampleTimes(u1, u2, es);
    RowOf(es, 0);
    SampleValues(Samples(es, u1));
  }

  lemma SampleKeys(u1: string, u2: string, es: seq<Entry>)
    requires u1 != u2
    requires es == [Entry(u1, 0.1), Entry(u1, 0.2), Entry(u2, 0.3)]
    ensures FirstSeen(es) == [u1, u2]
  {
    assert es[..2][..1] == es[..1] && es[..1][..0] == [];
    assert FirstSeen(es[..1]) == [u1];
    assert FirstSeen(es[..2]) == [u1];
  }

  lemma SampleTimes(u1: string, u2: string, es: seq<Entry>)
    requires u1 != u2
    requires es == [Entry(u1, 0.1), Entry(u1, 0.2), Entry(u2, 0.3)]
    ensures Samples(es, u1) == [0.1, 0.2]
  {
    assert es[..2][..1] == es[..1] && es[..1][..0] == [];
    assert Samples(es[..1], u1) == [0.1];
    assert Samples(es[..2], u1) == [0.1, 0.2];
  }

  lemma SampleValues(xs: seq<real>)
    requires xs == [0.1, 0.2]
    ensures Sum(xs) == 0.3
    ensures Mean(xs) == 0.15
    ensures Max(xs) == 0.2
    ensures Median(xs) == 0.15
  {
    assert xs[..1] == [0.1] && xs[..1][..0] == [];
    assert Sum(xs[..1]) == 0.1;
    assert xs[1..] == [0.2];
    assert Max(xs[1..]) == 0.2;
    MedianSmall(xs);
  }
}

=== FILE: text.dfy ===
/** The few pieces of Python's `str` and `re` behaviour that the analyzer relies on:
    what counts as whitespace and as a digit, maximal runs of characters,
    `str.strip()`, `str.split()` with no separator, and decimal digit strings. */
module Text {

  /** Python's `str.isspace()`, which is also what `re`'s `\s`, `str.strip()` and
      `str.split()` treat as whitespace: the ASCII controls TAB..CR and FS..US, the
      space, and the Unicode spaces NEL, NBSP, U+1680, U+2000..U+200A, the line and
      paragraph separators, U+202F, U+205F and U+3000. */
  predicate IsSpace(c: char) {
    c == ' ' || ('\t' <= c <= '\r') || ('\U{1c}' <= c <= '\U{1f}')
    || c == '\U{85}' || c == '\U{a0}' || c == '\U{1680}'
    || ('\U{2000}' <= c <= '\U{200a}') || c == '\U{2028}' || c == '\U{2029}'
    || c == '\U{202f}' || c == '\U{205f}' || c == '\U{3000}'
  }

  /** The complement of IsSpace: `re`'s `\S`. */
  predicate IsNonSpace(c: char) {
    !IsSpace(c)
  }

  /** An ASCII decimal digit (the model's reading of `\d`). */
  predicate IsDigit(c: char) {
    '0' <= c <= '9'
  }

  /** Every character of `s` satisfies `p`. */
  predicate All(s: string, p: char -> bool) {
    forall i :: 0 <= i < |s| ==> p(s[i])
  }

  lemma AllAppend(a: string, b: string, p: char -> bool)
    ensures All(a + b, p) <==> All(a, p) && All(b, p)
  {
    if All(a, p) && All(b, p) {
      forall i | 0 <= i < |a + b|
        ensures p((a + b)[i])
      {
        if i >= |a| {
          assert (a + b)[i] == b[i - |a|];
        }
      }
    }
    if All(a + b, p) {
      forall i | 0 <= i < |a|
        ensures p(a[i])
      {
        assert (a + b)[i] == a[i];
      }
      forall i | 0 <= i < |b|
        ensures p(b[i])
      {
        assert (a + b)[|a| + i] == b[i];
      }
    }
  }

  /** A string split in two: the part a scanner consumed and what follows it. */
  datatype Lexed = Lexed(text: string, rest: string)

  /** The longest prefix of `s` whose characters all satisfy `p`, and the remainder:
      what a greedy `p*` consumes. */
  function Run(s: string, p: char -> bool): (r: Lexed)
    ensures s == r.text + r.rest
    ensures All(r.text, p)
    ensures r.rest == [] || !p(r.rest[0])
  {
    if s == [] || !p(s[0]) then Lexed([], s)
    else
      var t := Run(s[1..], p);
      Lexed([s[0]] + t.text, t.rest)
  }

  /** A split of `s` into a `p`-run and a remainder that cannot extend it is the one
      Run finds. */
  lemma {:induction false} RunUnique(w: string, r: string, p: char -> bool)
    requires All(w, p)
    requires r == [] || !p(r[0])
    ensures Run(w + r, p) == Lexed(w, r)
  {
    if w == [] {
      assert w + r == r;
    } else {
      assert (w + r)[0] == w[0];
      assert (w + r)[1..] == w[1..] + r;
      RunUnique(w[1..], r, p);
      assert [w[0]] + w[1..] == w;
    }
  }

  /** Exactly the characters `Run(s, p)` consumes are those of the maximal `p`-prefix. */
  lemma RunExact(s: string, p: char -> bool, w: string, r: string)
    ensures Run(s, p) == Lexed(w, r) <==> s == w + r && All(w, p) && (r == [] || !p(r[0]))
  {
    if s == w + r && All(w, p) && (r == [] || !p(r[0])) {
      RunUnique(w, r, p);
    }
  }

  /** `n` space characters. */
  function Spaces(n: nat): (r: string)
    ensures |r| == n
    ensures forall i :: 0 <= i < n ==> r[i] == ' '
  {
    if n == 0 then [] else [' '] + Spaces(n - 1)
  }

  /** Python's `s.lstrip()`. */
  function LStrip(s: string): (r: string)
    ensures s == Run(s, IsSpace).text + r
    ensures r == [] || !IsSpace(r[0])
  {
    Run(s, IsSpace).rest
  }

  /** The whitespace at the end of `s`, which `s.rstrip()` removes. */
  function TrailingSpace(s: string): (trail: string)
    ensures All(trail, IsSpace)
    ensures |trail| <= |s|
  {
    if s != [] && IsSpace(s[|s| - 1]) then TrailingSpace(s[..|s| - 1]) + [s[|s| - 1]] else []
  }

  /** Python's `s.rstrip()`. */
  function RStrip(s: string): (r: string)
    ensures s == r + TrailingSpace(s)
    ensures r == [] || !IsSpace(r[|r| - 1])
  {
    if s != [] && IsSpace(s[|s| - 1]) then
      var r := RStrip(s[..|s| - 1]);
      assert s == s[..|s| - 1] + [s[|s| - 1]];
      r
    else
      assert s == s + [];
      s
  }

  /** A string with no whitespace at either end. */
  predicate Trimmed(t: string) {
    t == [] || (!IsSpace(t[0]) && !IsSpace(t[|t| - 1]))
  }

  /** Python's `s.strip()`: the string without its leading and trailing whitespace. */
  function Strip(s: string): (r: string)
    ensures exists lead, trail :: s == lead + r + trail && All(lead, IsSpace) && All(trail, IsSpace)
    ensures Trimmed(r)
  {
    var t := LStrip(s);
    var r := RStrip(t);
    var lead := Run(s, IsSpace).text;
    var trail := TrailingSpace(t);
    assert s == lead + r + trail;
    assert r != [] ==> r[0] == t[0];
    r
  }

  /** Removing trailing whitespace from `t + trail` gives back `t` when `t` does not
      itself end in whitespace. */
  lemma {:induction false} RStripOf(t: string, trail: string)
    requires t == [] || !IsSpace(t[|t| - 1])
    requires All(trail, IsSpace)
    ensures RStrip(t + trail) == t
  {
    if trail == [] {
      assert t + trail == t;
    } else {
      var init := trail[..|trail| - 1];
      SnocParts(t, trail);
      RStripStep(t + trail);
      RStripOf(t, init);
    }
  }

  lemma SnocParts(t: string, trail: string)
    requires trail != []
    ensures (t + trail)[..|t + trail| - 1] == t + trail[..|trail| - 1]
    ensures (t + trail)[|t + trail| - 1] == trail[|trail| - 1]
  {
  }

  /** A trailing whitespace character is removed. */
  lemma RStripStep(s: string)
    requires s != [] && IsSpace(s[|s| - 1])
    ensures RStrip(s) == RStrip(s[..|s| - 1])
  {
  }

  /** Strip is determined by its contract: whatever surrounds a trimmed string with
      whitespace, stripping gives that string back. */
  lemma StripOf(lead: string, t: string, trail: string)
    requires All(lead, IsSpace) && All(trail, IsSpace)
    requires Trimmed(t)
    ensures Strip(lead + t + trail) == t
  {
    var s := lead + t + trail;
    if t == [] {
      assert s == (lead + trail) + [];
      RunUnique(lead + trail, [], IsSpace);
      assert LStrip(s) == [];
    } else {
      assert s == lead + (t + trail);
      RunUnique(lead, t + trail, IsSpace);
      RStripOf(t, trail);
    }
  }

  /** Python's `s.split()`: the maximal runs of non-whitespace, in order. */
  function Split(s: string): (r: seq<string>)
    ensures forall i :: 0 <= i < |r| ==> r[i] != [] && All(r[i], IsNonSpace)
    decreases |s|
  {
    var t := LStrip(s);
    if t == [] then []
    else
      var w := Run(t, IsNonSpace);
      assert w.text != [] by {
        assert t[0] == (w.text + w.rest)[0];
      }
      [w.text] + Split(w.rest)
  }

  /** The words joined with one space between neighbours: `" ".join(words)`. */
  function Join(words: seq<string>): string {
    if words == [] then []
    else if |words| == 1 then words[0]
    else words[0] + ([' '] + Join(words[1..]))
  }

  /** A word of `str.split()`: non-empty and free of whitespace. */
  predicate IsWord(w: string) {
    w != [] && All(w, IsNonSpace)
  }

  lemma LStripSpace(c: char, s: string)
    requires IsSpace(c)
    ensures LStrip([c] + s) == LStrip(s)
  {
    assert ([c] + s)[1..] == s;
  }

  /** Splitting undoes joining with single spaces. */
  lemma {:induction false} SplitJoin(words: seq<string>)
    requires forall i :: 0 <= i < |words| ==> IsWord(words[i])
    ensures Split(Join(words)) == words
  {
    if words == [] {
    } else if |words| == 1 {
      SplitWord(words[0]);
    } else {
      var rest := words[1..];
      SplitCons(words[0], Join(rest));
      SplitJoin(rest);
      HeadTail(words);
    }
  }

  lemma HeadTail<T>(s: seq<T>)
    requires s != []
    ensures [s[0]] + s[1..] == s
  {
  }

  /** A single word splits into itself. */
  lemma SplitWord(w: string)
    requires IsWord(w)
    ensures Split(w) == [w]
  {
    assert w + [] == w;
    RunUnique([], w, IsSpace);
    RunUnique(w, [], IsNonSpace);
  }

  /** A word followed by a space splits into that word and the split of the rest. */
  lemma SplitCons(w: string, j: string)
    requires IsWord(w)
    ensures Split(w + ([' '] + j)) == [w] + Split(j)
  {
    var s := w + ([' '] + j);
    RunUnique([], s, IsSpace);
    assert [] + s == s;
    RunUnique(w, [' '] + j, IsNonSpace);
    LStripSpace(' ', j);
  }

  /** `gaps[0] + words[0] + gaps[1] + words[1] + … + trail`: the words with the
      whitespace written before each of them and after the last. */
  function Layout(gaps: seq<string>, words: seq<string>, trail: string): string
    requires |gaps| == |words|
  {
    if words == [] then trail
    else gaps[0] + (words[0] + Layout(gaps[1..], words[1..], trail))
  }

  /** The whitespace of a layout: every gap and the trail are whitespace, and every
      gap between two words holds at least one character. */
  predicate Spacing(gaps: seq<string>, trail: string) {
    && All(trail, IsSpace)
    && (forall i :: 0 <= i < |gaps| ==> All(gaps[i], IsSpace))
    && (forall i :: 1 <= i < |gaps| ==> gaps[i] != [])
  }

  /** Splitting a layout of words gives back the words, whatever whitespace surrounds
      and separates them. */
  lemma {:induction false} SplitLayout(gaps: seq<string>, words: seq<string>, trail: string)
    requires |gaps| == |words| && Spacing(gaps, trail)
    requires forall i :: 0 <= i < |words| ==> IsWord(words[i])
    ensures Split(Layout(gaps, words, trail)) == words
  {
    if words == [] {
      SplitBlank(trail);
    } else {
      var rest := Layout(gaps[1..], words[1..], trail);
      LayoutStartsBlank(gaps[1..], words[1..], trail);
      SplitGapWord(gaps[0], words[0], rest);
      SplitLayout(gaps[1..], words[1..], trail);
      HeadTail(words);
    }
  }

  /** Whitespace alone splits into no words. */
  lemma SplitBlank(s: string)
    requires All(s, IsSpace)
    ensures Split(s) == []
  {
    assert s + [] == s;
    RunUnique(s, [], IsSpace);
  }

  /** A layout that starts with a gap between words, or ends at once, begins with
      whitespace or is empty. */
  lemma LayoutStartsBlank(gaps: seq<string>, words: seq<string>, trail: string)
    requires |gaps| == |words| && All(trail, IsSpace)
    requires words != [] ==> gaps[0] != [] && All(gaps[0], IsSpace)
    ensures var s := Layout(gaps, words, trail); s == [] || IsSpace(s[0])
  {
  }

  /** Whitespace, a word and a rest that starts with whitespace split into the word
      and the split of the rest. */
  lemma SplitGapWord(gap: string, w: string, rest: string)
    requires All(gap, IsSpace) && IsWord(w)
    requires rest == [] || IsSpace(rest[0])
    ensures Split(gap + (w + rest)) == [w] + Split(rest)
  {
    assert (w + rest)[0] == w[0];
    RunUnique(gap, w + rest, IsSpace);
    RunUnique(w, rest, IsNonSpace);
  }

  /** The whitespace before each word of `s` and after its last one: `s` is the
      layout of its own split. */
  function Gaps(s: string): (r: (seq<string>, string))
    ensures |r.0| == |Split(s)| && Spacing(r.0, r.1)
    ensures s == Layout(r.0, Split(s), r.1)
    decreases |s|
  {
    var lead := Run(s, IsSpace);
    if lead.rest == [] then
      assert s == lead.text + [];
      ([], s)
    else
      var w := Run(lead.rest, IsNonSpace);
      assert w.text != [] by {
        assert lead.rest[0] == (w.text + w.rest)[0];
      }
      var (g, trail) := Gaps(w.rest);
      GapsFirst(w.rest, g, trail);
      assert Split(s) == [w.text] + Split(w.rest);
      LayoutCons(lead.text, w.text, g, Split(w.rest), trail);
      ([lead.text] + g, trail)
  }

  /** `s.split()` gives `words` exactly when `s` is those words laid out with
      whitespace around and between them. */
  lemma SplitExact(s: string, words: seq<string>)
    ensures Split(s) == words <==>
      && (forall i :: 0 <= i < |words| ==> IsWord(words[i]))
      && exists gaps, trail :: |gaps| == |words| && Spacing(gaps, trail) && s == Layout(gaps, words, trail)
  {
    if Split(s) == words {
      var (gaps, trail) := Gaps(s);
      assert |gaps| == |words| && Spacing(gaps, trail) && s == Layout(gaps, words, trail);
    }
    if (forall i :: 0 <= i < |words| ==> IsWord(words[i]))
       && exists gaps, trail :: |gaps| == |words| && Spacing(gaps, trail) && s == Layout(gaps, words, trail) {
      var gaps, trail :| |gaps| == |words| && Spacing(gaps, trail) && s == Layout(gaps, words, trail);
      SplitLayout(gaps, words, trail);
    }
  }

  /** The first gap of a layout that starts with whitespace is not empty. */
  lemma GapsFirst(s: string, g: seq<string>, trail: string)
    requires s == [] || IsSpace(s[0])
    requires |g| == |Split(s)| && Spacing(g, trail) && s == Layout(g, Split(s), trail)
    ensures g != [] ==> g[0] != []
  {
    if g != [] {
      var ws := Split(s);
      var tail := ws[0] + Layout(g[1..], ws[1..], trail);
      assert s == g[0] + tail;
      assert tail[0] == ws[0][0];
    }
  }

  /** A gap and a word put in front of a layout make a layout one word longer. */
  lemma LayoutCons(gap: string, w: string, g: seq<string>, ws: seq<string>, trail: string)
    requires |g| == |ws|
    requires All(gap, IsSpace) && Spacing(g, trail) && (g != [] ==> g[0] != [])
    ensures Spacing([gap] + g, trail)
    ensures Layout([gap] + g, [w] + ws, trail) == gap + (w + Layout(g, ws, trail))
  {
    assert ([gap] + g)[1..] == g && ([w] + ws)[1..] == ws;
  }

  /** 10 to the power `n`. */
  function Pow10(n: nat): (r: nat)
    ensures r >= 1
  {
    if n == 0 then 1 else 10 * Pow10(n - 1)
  }

  /** The value of an ASCII digit character (zero for any other character). */
  function DigitValue(c: char): (r: nat)
    ensures r < 10
  {
    if IsDigit(c) then c as int - '0' as int else 0
  }

  /** The digit character of a value below ten. */
  function DigitChar(d: nat): (c: char)
    requires d < 10
    ensures IsDigit(c) && DigitValue(c) == d
  {
    (d + '0' as int) as char
  }

  /** The number a string of ASCII digits denotes in base ten (Python's `int(s)`). */
  function DigitsValue(s: string): (r: nat)
    ensures r < Pow10(|s|)
  {
    if s == [] then 0
    else DigitsValue(s[..|s| - 1]) * 10 + DigitValue(s[|s| - 1])
  }

  /** The value of a concatenation of digit strings. */
  lemma {:induction false} DigitsValueAppend(a: string, b: string)
    ensures DigitsValue(a + b) == DigitsValue(a) * Pow10(|b|) + DigitsValue(b)
  {
    if b == [] {
      assert a + b == a;
    } else {
      var b' := b[..|b| - 1];
      assert (a + b)[..|a + b| - 1] == a + b';
      DigitsValueAppend(a, b');
      Regroup(DigitsValue(a), Pow10(|b'|), DigitsValue(b'), DigitValue(b[|b| - 1]));
    }
  }

  lemma Regroup(x: int, p: int, y: int, d: int)
    ensures (x * p + y) * 10 + d == x * (10 * p) + (y * 10 + d)
  {
  }

  /** `n` written with exactly `width` digits, zero-padded on the left (the
      `%04d`/`%02d`-style rendering `strftime` uses for dates). */
  function Pad(n: nat, width: nat): (r: string)
    ensures |r| == width && All(r, IsDigit)
  {
    if width == 0 then []
    else Pad(n / 10, width - 1) + [DigitChar(n % 10)]
  }

  /** Reading a padded number back gives the number when it fits the width. */
  lemma {:induction false} PadValue(n: nat, width: nat)
    requires n < Pow10(width)
    ensures DigitsValue(Pad(n, width)) == n
  {
    if width > 0 {
      var s := Pad(n, width);
      var q, d := n / 10, n % 10;
      assert s[..|s| - 1] == Pad(q, width - 1) && s[|s| - 1] == DigitChar(d);
      DivideByTen(n, Pow10(width - 1));
      PadValue(q, width - 1);
    }
  }

  lemma DivideByTen(n: nat, p: nat)
    requires n < 10 * p
    ensures n / 10 < p && n == n / 10 * 10 + n % 10
  {
  }

  /** Padding the value of a digit string to its own length gives the string back. */
  lemma {:induction false} PadDigits(s: string)
    requires All(s, IsDigit)
    ensures Pad(DigitsValue(s), |s|) == s
  {
    if s != [] {
      var p := s[..|s| - 1];
      var v := DigitsValue(s);
      assert v / 10 == DigitsValue(p) && v % 10 == DigitValue(s[|s| - 1]);
      PadDigits(p);
      assert s == p + [s[|s| - 1]];
    }
  }
}

=== FILE: wrappers.dfy ===
/** The optional-value datatype used by every recogniser of the model, in the
    failure-compatible shape that lets a chain of steps be written with `:-`. */
module Wrappers {

  datatype Option<+T> = None | Some(value: T) {

    /** An absent value stops a `:-` chain. */
    predicate IsFailure() {
      None?
    }

    /** The absent value, carried on as the result of the enclosing chain. */
    function PropagateFailure<U>(): Option<U>
      requires None?
    {
      None
    }

    /** The present value, bound by `:-` when the chain goes on. */
    function Extract(): T
      requires Some?
    {
      value
    }
  }
}
